=== FILE: README.md ===
# Tile templates directory — a Dafny model

This project models the core of the Tile Templates sidebar of Monk's Active
Tiles (`apps/tile-templates.js`). The sidebar keeps two flat lists in world
settings: the templates (`tile-templates`) and the folders
(`tile-template-folders`). Every record's `folder` field names its parent by
id. The model covers four parts of that file:

- the classification that builds the folder tree from the flat lists;
- the guard, resolution and merge logic of a template drop and of a folder
  drop;
- the edits that rewrite a whole list: save from the create/update dialog,
  new folder, clear folder, delete template, and remove or delete folder;
- export of a template to a JSON record, and import of such a record over an
  existing template.

Records are JavaScript objects, modelled as `map<string, Value>`
(`JsValue`). A missing key is `undefined`. The JavaScript tests the code
relies on are written out:

- truthiness;
- `===` (objects never equal);
- `==` (`null` and `undefined` equal each other, primitives compare by value
  and type);
- optional chaining `?.`, property access that throws on `null`/`undefined`,
  and `|| null`.

Each handler ends in a `Result`, defined in `Outcome`:

- `Ok(list)` is the whole list written back to its setting;
- `Halted(Returned)` is an early return with no write;
- `Halted(Threw)` is a `TypeError` before the write.

The host's integer-gap sort (`SortingHelpers.performIntegerSort`) is a
function parameter of type `Sorter`. A drop handler is therefore modelled as
two pieces:

- the options it hands to the sort (`DocumentPlan`, `FolderPlan`);
- the merge of the sort's answer back into the list (`ApplySortUpdates`).

Where the code as written departs from what the surrounding code evidently
intends (see Findings), the model shares one definition between both
readings. The definition is parametrised by the one expression that differs
(`ResolveDocumentDropWith`, `FolderDestinationWith`, `ImportWith`). The
as-written instance is `DropDocument`, `DropFolder` or `Import`; the
corrected one is `DropDocumentCorrected`, `DropFolderCorrected` or
`ImportCorrected`. The line-353 reading is the one exception: the row
element's `dataset` is missing as written, so no expression is shared, and
the two readings are separate functions (`Edits.RemoveFolderAsWritten` and
`Edits.RemoveFolder`).

Modules:

- `Outcome`: option and result types.
- `JsValue`: values, records, JavaScript comparisons.
- `Lists`: `find`, `findSplice`, `filter`, `partition`, and a stable sort
  with a comparator parameter.
- `Classify`, `Drop`, `Edits`, `Transfer`: the four parts above.
- `Findings`: concrete inputs for each discrepancy.

Three behaviours of the code worth knowing:

- Line 295 rejects a folder dropped onto an expanded folder row at the
  maximum depth: the drop ends with no write.
- Lines 63 and 67 place an entry whose `folder` names a folder that no
  longer exists in neither the root's content nor any folder's content, for
  any one call of `_classifyFolderContent`.
- Line 308 refuses only a folder made its own parent. A folder dropped onto
  an expanded row of one of its own children, below the depth limit, is
  accepted, and the sort is asked to file it under that child
  (`Drop.DropIntoOwnChildIsAccepted`).

## Model

| member | source | states |
|---|---|---|
| Classify.ClassifyFolderContent | apps/tile-templates.js:59-72 | Children are exactly the folders that belong to the given folder (all of them go unassigned when children are not allowed). Contents are exactly the documents that belong to it. Each pair of lists is a permutation of its input. |
| Classify.ClassifiedContentIsSorted | apps/tile-templates.js:60-68 | With consistent comparators, both returned children lists are ordered by the comparator that the folder's `sorting` mode selects ("a" alphabetical, otherwise standard). |
| Classify.RootContentIsUnparented | apps/tile-templates.js:63-67 | At the root, an entry belongs exactly when its `folder` is null or missing. |
| Classify.FolderContentMatchesId | apps/tile-templates.js:63-67 | Inside a folder with a string `_id`, an entry belongs exactly when its `folder` is that id string. |
| Classify.DanglingEntryBelongsNowhere | apps/tile-templates.js:63-67 | An entry whose `folder` names no existing folder belongs neither to the root nor to any folder. |
| Drop.ApplySortUpdates | apps/tile-templates.js:256-261 | The merge of the sort's answer keeps the list's length and order. Every entry is either unchanged or ends under the new parent. A missing target throws. |
| Drop.ApplySortUpdatesTouchesOnlyTargets | apps/tile-templates.js:257-261 | When the sort writes no `_id`, every id survives, and only entries named by some update change. |
| Drop.ApplySortUpdatesKeepsUnwritten | apps/tile-templates.js:257-261 | When the sort writes no `_id`, `mergeObject` only overlays: a field other than `folder` that no update writes into an entry keeps its value there. |
| Drop.ApplySortUpdatesTouchesOnlyFirstMatches | apps/tile-templates.js:257-261 | When the sort writes no `_id`, only an entry that some update's id finds first changes; a later entry with the same id stays as it is. |
| Drop.ApplySortUpdatesSucceedsIffTargetsExist | apps/tile-templates.js:257-259 | When the sort writes no `_id`, the merge completes exactly when every update names an entry of the list. |
| Drop.ApplySortUpdatesReachesEveryTarget | apps/tile-templates.js:257-261 | When the sort writes no `_id`, every entry an update names ends with `folder` set to the parent. |
| Drop.MergedUpdateLands | apps/tile-templates.js:257-259 | When the sort writes no `_id`, every field of an update other than `folder` (the new sort key among them) holds the update's value in the first entry with the update's id, unless a later update names that entry again. |
| Drop.ApplySortUpdatesMergesEachUpdate | apps/tile-templates.js:257-259 | The previous row for every update and entry at once. |
| Drop.MergeOutcome | apps/tile-templates.js:257-263 | When the sort writes no `_id`, the merge completes exactly when every update names an entry, and a completed merge keeps the ids, changes only entries some update finds first, keeps every field other than `folder` that no update writes, files every named entry under the parent and holds each update's fields in the entry it names last. |
| Drop.ClosestFolder | apps/tile-templates.js:228-230 | Without a folder element the result is `null`. With one, it is the first folder whose `_id ==` the element's folder id, or `undefined` exactly when no folder matches. |
| Drop.DocumentPlanFor | apps/tile-templates.js:250-254 | The siblings are exactly those templates whose `folder` is strictly the destination key, the moved template excluded. |
| Drop.ResolveDocumentDropWith | apps/tile-templates.js:225-254 | No write for a missing payload or a drop onto itself. A relative drop sorts against the target template and throws when that template is missing. Otherwise the sort runs inside the closest folder, with parent `folder?._id \|\| null`, and a non-relative drop with a payload always reaches the sort. A relative drop onto a present template, like any other drop with a payload that is not onto itself, reaches the sort. In both cases the siblings are exactly the templates of the collection, other than the moved one, whose `folder` is strictly `folder?.id`. |
| Drop.DropDocumentWith | apps/tile-templates.js:225-263 | The same guards, and a resolution that stops (a return or a throw) stops the handler the same way. A written list has the input's length, and each entry is unchanged or filed under the resolved parent. Once the drop resolves, and the sort writes no `_id`, the list is written exactly when every update names a template. The written list then keeps every id, changes only templates some update finds first, keeps every field other than `folder` that no update writes, files every named template under the parent, and holds each update's fields in the template it names when no later update names it again. |
| Drop.RelativeDocumentDropGoesToRoot | apps/tile-templates.js:239-252 | As written, a relative drop onto a template filed by id string sends the moved template to the root. Its siblings are the templates with no `folder` at all. |
| Drop.RelativeDocumentDropJoinsTargetFolder | apps/tile-templates.js:242-252 | Corrected, a relative drop onto a template filed in an existing folder files the moved template in that folder, among that folder's templates. |
| Drop.FolderDestinationWith | apps/tile-templates.js:276-305 | A collapsed folder row gives a sort beside that folder. An expanded row gives a move inside it, or no write at the maximum depth. A folder row resolves exactly when it is found in the list (unless the maximum-depth stop applies); a missing one throws. Elsewhere the parent is the closest folder element's id, or `null`, and the sort target is that element itself when it is collapsed and none otherwise. |
| Drop.FolderPlanFrom | apps/tile-templates.js:307-317 | A nullish payload throws. A parent strictly equal to the moved folder's `_id` stops the drop, and any other parent gives a plan. In that case the siblings are exactly the folders under the parent that pass the line-313 filter, and the parent never becomes the moved folder's own id. |
| Drop.DropFolderWith | apps/tile-templates.js:270-326 | No write for another document type, at the maximum depth, or for a self-parent, and a resolution that stops (a return, or the throw for a missing row or a nullish payload) stops the handler the same way. A written list has the input's length, and each folder is unchanged or set to `parentId \|\| null`. Once the drop resolves, and the sort writes no `_id`, the list is written exactly when every update names a folder. The written list then keeps every id, changes only folders some update finds first, keeps every field other than `folder` that no update writes, files every named folder under the parent, and holds each update's fields in the folder it names when no later update names it again. |
| Drop.ResolveFolderDropWith | apps/tile-templates.js:271-317 | Another document type stops the drop, and a stopped destination stops it the same way. The drop reaches the sort exactly when the type is `Tile`, the payload is present, the destination resolves and its parent is not the payload's own `_id`. The plan's parent is then `parentId \|\| null`. |
| Drop.SiblingFilterKeepsMovedFolder | apps/tile-templates.js:312-314 | As written, the `f.id !== folder` test never excludes anything. The siblings are exactly the folders under the parent, the moved one included. |
| Drop.CollapsedFolderDropGoesToRoot | apps/tile-templates.js:287-291 | As written, a drop onto a collapsed folder filed by id string moves the dropped folder to the root. |
| Drop.CollapsedFolderDropStaysBeside | apps/tile-templates.js:287-291 | Corrected, a drop onto a collapsed folder files the dropped folder under that folder's parent, sorted against it. |
| Drop.DropIntoOwnChildIsAccepted | apps/tile-templates.js:293-308 | A folder dropped onto an expanded child of its own, below the depth limit, reaches the sort with that child as the parent. |
| Edits.MergeForm | apps/tile-templates.js:154-155 | The form's fields override the dialog's data. A falsy `folder` is removed, and a truthy one is kept. |
| Edits.NewTemplate | apps/tile-templates.js:162-173 | A new template gets `_id` and `id` equal to the fresh id. It is visible, keeps the dialog's name and folder, takes `img` from the normalised record's `texture.src`, and falls back to the default thumbnail. It is built exactly when the normalised record has a texture; otherwise the callback throws. Every other field is the normalised record's. |
| Edits.Filed | apps/tile-templates.js:167-170 | The ids, name, visibility and folder are set; every other field is kept. |
| Edits.Pictured | apps/tile-templates.js:171-173 | `img` is the texture source and the thumbnail falls back to the default image; every other field is kept. |
| Edits.SaveTemplate | apps/tile-templates.js:151-178 | A truthy `id` replaces the first template with that `_id` in place, or writes the list unchanged. Otherwise the list is written exactly when the normalised record has a texture, with the new template appended, its `img` the texture source, and every other template kept. |
| Edits.CreateFolder | apps/tile-templates.js:196-204 | A blank or missing name becomes the default name. The new folder is appended, visible, at the root, with `_id` equal to `id`. A non-string name throws. |
| Edits.ClearFolder | apps/tile-templates.js:408-413 | A write happens exactly when the template exists. Only its `folder` changes, to `null`. Otherwise the callback throws. |
| Edits.DeleteTemplate | apps/tile-templates.js:419-428 | A write happens exactly when the template exists. The first match is removed and the rest keep their order. |
| Edits.RemoveFolderAsWritten | apps/tile-templates.js:351-355 | As written, the callback throws for every folder list, before the confirmation dialog. |
| Edits.RemoveFolder | apps/tile-templates.js:353-360 | Corrected (the folder id read from the row element, as line 338 does): a write happens exactly when the folder exists. The folder found is the one removed, and the others keep their order. Otherwise the callback throws. |
| Edits.SpliceFindsSameFolder | apps/tile-templates.js:353-359 | Searching again by the found folder's own `_id` lands on the same index. |
| Transfer.Export | apps/tile-templates.js:442-457 | The export succeeds exactly when the template exists with object or array `flags` and a string `name`. The result drops `_id`, `folder`, `sort` and `ownership` and stamps `flags.exportSource`. Every other field is unchanged. |
| Transfer.KeepDestination | apps/tile-templates.js:484-495 | The destination's `_id`, `sort`, `ownership` and `name` are kept, with the folder chosen by the folder rule. Every other field comes from the imported record. |
| Transfer.Displayed | apps/tile-templates.js:497-501 | The record is visible. `img` is the texture source, `id` is the `_id`, and the thumbnail falls back to the default. |
| Transfer.ImportedRecord | apps/tile-templates.js:484-501 | The import throws exactly when the imported record has no texture. Otherwise it combines the two previous rows. |
| Transfer.ImportWith | apps/tile-templates.js:465-505 | A missing destination throws. No file means no write. With a destination and a file, the list is written exactly when the imported record has a texture; the destination is then replaced in place and every other template is unchanged. |
| Transfer.ImportLosesFolder | apps/tile-templates.js:494 | As written, importing into a template filed by id string leaves it without a `folder`. |
| Transfer.ExportImportRoundTrip | apps/tile-templates.js:445-501 | Corrected, exporting a template and importing the file back into it restores every field except `flags` and the display fields the import sets. |
| Findings.ImportIntoFiledTemplate | apps/tile-templates.js:494 | Template X9 in folder F1 loses F1 on import as written. Corrected, it keeps F1, its sort and its name. |
| Findings.RelativeDropLeavesFolder | apps/tile-templates.js:244-260 | Template B, dropped onto A in the same folder F1, ends with `folder` `null`. |
| Findings.RelativeDropKeepsFolder | apps/tile-templates.js:244-260 | Corrected, B stays in F1. |
| Findings.CollapsedDropLeavesParent | apps/tile-templates.js:288-291 | Folder M, dropped onto collapsed folder C under P, ends at the root. |
| Findings.CollapsedDropKeepsParent | apps/tile-templates.js:288-291 | Corrected, M ends under P. |
| Findings.RemoveOnlyFolder | apps/tile-templates.js:351-359 | Removing F1 from the list holding only F1 throws as written; corrected, the list becomes empty. |

## Left out

- `SortingHelpers.performIntegerSort` belongs to the host. It is the `Sorter` parameter, so the sort keys it picks are not modelled.
- `_sortAlphabetical` and `_sortStandard` belong to the host sidebar. They are comparator parameters.
- Array `sort` is modelled as a stable insertion sort. Any stable sort gives the same result for a consistent comparator.
- DOM reading is reduced to the `DropTarget` fields the handlers read. `closest`, `dataset` and `classList` are the DOM; the `droptarget` class removal and rendering have no effect on the lists.
- The dialogs (`Dialog.confirm`, `FolderConfig`, the import dialog) are reduced to their confirmed path. Cancelling writes nothing.
- Context-menu `condition`s are left out, as is the "edit folder" entry, which has no save.
- `game.settings.set` is the `Ok` result. Reading a setting (`setting(...) \|\| []`) is the list given as input.
- `TileDocument` construction and `toObject` are the `normalize` parameter on save. On import, the file is given already normalised.
- `JSON.parse` and `readTextFromFile` are left out, as are `saveDataToFile`, `slugify` and the file name.
- `randomID` is the `newId` parameter.
- `canvas.grid.size` is the `gridSize` parameter.
- `Folder.implementation.defaultName` is the `defaultName` parameter.
- The world, system and version stamp is the `ExportSource` parameter.
- `CONST.FOLDER_MAX_DEPTH` is the `maxDepth` parameter.
- `mergeObject` is a flat overlay. Dotted keys and nested merging are not modelled. The sort's updates and the dialog's form are flat records.
- Numbers are integers, and a non-numeric `folderDepth` is `None` (NaN). No floating point.
- Objects are values, so object identity is not modelled. `===` between two objects is always false. `==` between different primitive types is false, since records hold ids and keys where type coercion does not arise.
- `initialize`, `getData`, `_onDragStart`, `_onClickDocumentName` and `_onCreateDocument` are rendering and event glue. They are not part of this model.
- Drop.ApplySortUpdatesTouchesOnlyTargets: assumes the host sort writes no `_id` (it writes the sort key), because an update that renamed an entry would change later lookups.
- Drop.ApplySortUpdatesSucceedsIffTargetsExist: same assumption.
- Drop.ApplySortUpdatesReachesEveryTarget: same assumption.
- Drop.MergedUpdateLands: same assumption.
- Drop.ApplySortUpdatesMergesEachUpdate: same assumption.
- Drop.ApplySortUpdatesKeepsUnwritten: same assumption.
- Drop.ApplySortUpdatesTouchesOnlyFirstMatches: same assumption.
- Drop.MergeOutcome: same assumption.
- Drop.DropDocumentWith: states whether the list is written, and what the written list holds, only for a sort that writes no `_id`, for the same reason.
- Drop.DropFolderWith: the same.
- Transfer.ExportImportRoundTrip: assumes the host normalisation leaves the exported record as it is, because `TileDocument` is not part of this model.

## Findings

| source | as written | input that shows it | evidently intended | confidence | as-written member | corrected member |
|---|---|---|---|---|---|---|
| apps/tile-templates.js:494 | `preserve.folder = document.folder?.id` reads `id` on the destination's folder id string, which gives `undefined`, so the import removes `folder` | importing over template X9 whose `folder` is "F1" | the imported template stays in the destination's folder (`document.folder`) | not executed | Findings.ImportIntoFiledTemplate | Transfer.ExportImportRoundTrip |
| apps/tile-templates.js:244 | `folder = targetDocument.folder` is an id string, so `folder?._id` and `folder?.id` are `undefined`: the moved template goes to the root, sorted among root templates | template B dropped onto template A, both in folder F1 | the moved template joins the target template's folder | not executed | Findings.RelativeDropLeavesFolder | Findings.RelativeDropKeepsFolder |
| apps/tile-templates.js:290 | `targetFolder.folder?._id` reads `_id` on the collapsed folder's parent id string, so the parent is `undefined` and the dropped folder goes to the root | folder M dropped onto collapsed folder C, which is under folder P | the dropped folder is placed beside C, under P | not executed | Findings.CollapsedDropLeavesParent | Findings.CollapsedDropKeepsParent |
| apps/tile-templates.js:353 | `li` is `header.parent()`, a jQuery wrapper (lines 364 and 389 read `li[0]`), so `li.dataset.folderId` throws inside `find`; with no folders, `folder.name` (line 355) throws. The same holds for lines 376-380 | removing folder F1 from the list holding only F1 | the folder id is read from the row element, as line 338 does with `header.parent()[0]`, and the folder is removed | not executed | Findings.RemoveOnlyFolder | Edits.RemoveFolder |

=== FILE: classify.dfy ===
/** `_classifyFolderContent` (apps/tile-templates.js): splitting the flat
    folder and template lists into the content of one folder and the rest. */
module Classify {
  import opened Outcome
  import opened JsValue
  import opened Lists

  /** The four lists the classification returns. */
  datatype Content = Content(
    folders: seq<Record>,
    documents: seq<Record>,
    unassignedFolders: seq<Record>,
    unassignedDocuments: seq<Record>)

  /** The membership test of lines 63 and 67: the entry's `folder` is
      strictly the folder's `_id`, or, at the root (no folder), the entry's
      `folder` is `null` or missing. */
  predicate BelongsTo(e: Record, folder: Option<Record>)
  {
    var parent := Lookup(e, "folder");
    var folderId := if folder.Some? then Lookup(folder.value, "_id") else None;
    StrictEquals(parent, folderId) || (IsNullish(parent) && folder.None?)
  }

  /** The comparator chosen by the folder's `sorting` mode. */
  function ChosenSort(folder: Option<Record>,
                      alphabetical: (Record, Record) -> int,
                      standard: (Record, Record) -> int): (Record, Record) -> int
  {
    if folder.Some? && Lookup(folder.value, "sorting") == Some(Str("a"))
    then alphabetical else standard
  }

  function ClassifyFolderContent(folder: Option<Record>, folders: seq<Record>, documents: seq<Record>,
                                 allowChildren: bool,
                                 alphabetical: (Record, Record) -> int,
                                 standard: (Record, Record) -> int): (r: Content)
    ensures forall f :: f in r.folders ==> allowChildren && BelongsTo(f, folder)
    ensures forall f :: f in r.unassignedFolders ==> !(allowChildren && BelongsTo(f, folder))
    ensures multiset(r.folders) + multiset(r.unassignedFolders) == multiset(folders)
    ensures forall e :: e in r.documents ==> BelongsTo(e, folder)
    ensures forall e :: e in r.unassignedDocuments ==> !BelongsTo(e, folder)
    ensures multiset(r.documents) + multiset(r.unassignedDocuments) == multiset(documents)
    ensures !allowChildren ==> r.folders == [] && r.unassignedFolders == folders
  {
    var sort := ChosenSort(folder, alphabetical, standard);
    var isChild := ChildTest(folder, allowChildren);
    var isContent := ChildTest(folder, true);
    var (unassignedFolders, subfolders) := Partition(folders, isChild);
    var (unassignedDocuments, contents) := Partition(documents, isContent);
    PartitionIsPermutation(folders, isChild);
    PartitionIsPermutation(documents, isContent);
    if !allowChildren then
      PartitionNonePass(folders, isChild);
      Content(SortBy(subfolders, sort), SortBy(contents, sort), unassignedFolders, unassignedDocuments)
    else
      Content(SortBy(subfolders, sort), SortBy(contents, sort), unassignedFolders, unassignedDocuments)
  }

  /** The partition rule of line 63 (line 67 is the same with `allowChildren`
      true). */
  function ChildTest(folder: Option<Record>, allowChildren: bool): Record -> bool
  {
    e => allowChildren && BelongsTo(e, folder)
  }

  /** With consistent comparators the returned children are in the folder's
      sort order. */
  lemma ClassifiedContentIsSorted(folder: Option<Record>, folders: seq<Record>, documents: seq<Record>,
                                  allowChildren: bool,
                                  alphabetical: (Record, Record) -> int,
                                  standard: (Record, Record) -> int)
    requires TotalPreorder(alphabetical) && TotalPreorder(standard)
    ensures var r := ClassifyFolderContent(folder, folders, documents, allowChildren, alphabetical, standard);
            var sort := ChosenSort(folder, alphabetical, standard);
            SortedBy(r.folders, sort) && SortedBy(r.documents, sort)
  {
    var sort := ChosenSort(folder, alphabetical, standard);
    SortBySorted(Partition(folders, ChildTest(folder, allowChildren)).1, sort);
    SortBySorted(Partition(documents, ChildTest(folder, true)).1, sort);
  }

  /** At the root the content is exactly the entries whose `folder` is
      `null` or missing. */
  lemma RootContentIsUnparented(e: Record)
    ensures BelongsTo(e, None) <==> IsNullish(Lookup(e, "folder"))
  {
  }

  /** Inside a folder with a string `_id`, the content is exactly the entries
      whose `folder` is that string. */
  lemma FolderContentMatchesId(e: Record, folder: Record, id: string)
    requires Lookup(folder, "_id") == Some(Str(id))
    ensures BelongsTo(e, Some(folder)) <==> Lookup(e, "folder") == Some(Str(id))
  {
  }

  /** An entry whose `folder` names no existing folder is placed nowhere: it
      belongs neither to the root nor to any folder of the list. */
  lemma DanglingEntryBelongsNowhere(e: Record, folders: seq<Record>, id: string)
    requires Lookup(e, "folder") == Some(Str(id))
    requires forall f :: f in folders ==> Lookup(f, "_id") != Some(Str(id))
    ensures !BelongsTo(e, None)
    ensures forall f :: f in folders ==> !BelongsTo(e, Some(f))
  {
  }
}

=== FILE: drop.dfy ===
/** The guard, resolution and merge logic of `_handleDroppedDocument` and
    `_handleDroppedFolder` (apps/tile-templates.js). The integer-gap sort
    itself belongs to the host and is a parameter here. */
module Drop {
  import opened Outcome
  import opened JsValue
  import opened Lists

  /** The `.folder` element found by `target.closest(".folder")`. */
  datatype FolderElement = FolderElement(folderId: Option<string>, collapsed: bool)

  /** What the handlers read from the element dropped on. */
  datatype DropTarget = DropTarget(
    closestFolder: Option<FolderElement>,  // target.closest(".folder")
    documentId: Option<string>,            // target.dataset.documentId
    folderId: Option<string>,              // target.dataset.folderId
    collapsed: bool,                       // target.classList.contains("collapsed")
    folderDepth: Option<int>)              // Number(target.dataset.folderDepth), None for NaN

  /** What `sortData.target` holds when the host sort is called. */
  datatype SortTarget = NoTarget | TargetRecord(record: Record) | TargetElement(element: FolderElement)

  /** The options handed to the host's `performIntegerSort`. */
  datatype SortRequest = SortRequest(
    sortKey: string,
    sortBefore: Option<bool>,
    target: SortTarget,
    parentId: Option<Value>,
    siblings: seq<Record>)

  /** One entry of the host sort's answer: `s.target.id` and `s.update`. */
  datatype SortUpdate = SortUpdate(targetId: Option<Value>, update: Record)

  /** The host's `SortingHelpers.performIntegerSort`: given the moved item and
      the options, the updates to apply. */
  type Sorter = (Value, SortRequest) -> seq<SortUpdate>

  /** Some entry of `list` is found by `id`. */
  ghost predicate Targets(list: seq<Record>, id: Option<Value>)
  {
    exists i :: 0 <= i < |list| && HasId(id)(list[i])
  }

  /** The host sort wrote no `_id`, so the lookups of later updates see the
      ids the list started with. */
  ghost predicate IdFree(updates: seq<SortUpdate>)
  {
    forall k :: 0 <= k < |updates| ==> "_id" !in updates[k].update
  }

  /** The merge loops of lines 257-261 and 320-324: each update is merged
      into the first entry found by its target id, whose `folder` is then
      set to `parent`; an update whose entry is missing throws. */
  function ApplySortUpdates(list: seq<Record>, updates: seq<SortUpdate>, parent: Value): (r: Result<seq<Record>>)
    ensures r.Halted? ==> r.how == Threw
    ensures r.Ok? ==> |r.value| == |list|
    ensures r.Ok? ==> forall i :: 0 <= i < |list| ==>
              r.value[i] == list[i] || Lookup(r.value[i], "folder") == Some(parent)
    decreases |updates|
  {
    if |updates| == 0 then Ok(list)
    else
      match FindFirst(list, HasId(updates[0].targetId))
      case None => Halted(Threw)
      case Some(i) =>
        ApplySortUpdates(list[i := (list[i] + updates[0].update)["folder" := parent]], updates[1..], parent)
  }

  /** Without `_id` in the updates, ids survive the merge and an entry
      changes only if some update names it. */
  lemma {:induction false} ApplySortUpdatesTouchesOnlyTargets(list: seq<Record>, updates: seq<SortUpdate>, parent: Value)
    requires IdFree(updates)
    ensures var r := ApplySortUpdates(list, updates, parent);
            r.Ok? ==> forall i :: 0 <= i < |list| ==>
              && Lookup(r.value[i], "_id") == Lookup(list[i], "_id")
              && (r.value[i] != list[i] ==>
                    exists k :: 0 <= k < |updates| && HasId(updates[k].targetId)(list[i]))
    decreases |updates|
  {
    if |updates| > 0 {
      match FindFirst(list, HasId(updates[0].targetId))
      case None =>
      case Some(j) =>
        var next := list[j := (list[j] + updates[0].update)["folder" := parent]];
        ApplySortUpdatesTouchesOnlyTargets(next, updates[1..], parent);
        var r := ApplySortUpdates(list, updates, parent);
        if r.Ok? {
          forall i | 0 <= i < |list| && r.value[i] != list[i]
            ensures exists k :: 0 <= k < |updates| && HasId(updates[k].targetId)(list[i])
          {
            if i == j {
              assert HasId(updates[0].targetId)(list[i]);
            } else {
              assert next[i] == list[i];
              var k :| 0 <= k < |updates[1..]| && HasId(updates[1..][k].targetId)(next[i]);
              assert HasId(updates[k + 1].targetId)(list[i]);
            }
          }
        }
    }
  }

  /** Two lists with the same ids pointwise find the same ids. */
  lemma SameIdsSameTargets(a: seq<Record>, b: seq<Record>, id: Option<Value>)
    requires |a| == |b|
    requires forall i :: 0 <= i < |a| ==> Lookup(a[i], "_id") == Lookup(b[i], "_id")
    ensures Targets(a, id) <==> Targets(b, id)
  {
    if Targets(a, id) {
      var i :| 0 <= i < |a| && HasId(id)(a[i]);
      assert HasId(id)(b[i]);
    }
    if Targets(b, id) {
      var i :| 0 <= i < |b| && HasId(id)(b[i]);
      assert HasId(id)(a[i]);
    }
  }

  /** One merge step keeps every id when the update writes no `_id`. */
  lemma MergeStepKeepsIds(list: seq<Record>, j: nat, u: SortUpdate, parent: Value)
    requires j < |list| && "_id" !in u.update
    ensures var next := list[j := (list[j] + u.update)["folder" := parent]];
            forall i :: 0 <= i < |list| ==> Lookup(next[i], "_id") == Lookup(list[i], "_id")
  {
  }

  /** Without `_id` in the updates, the merge completes exactly when every
      update names an entry of the list. */
  lemma {:induction false} ApplySortUpdatesSucceedsIffTargetsExist(list: seq<Record>, updates: seq<SortUpdate>, parent: Value)
    requires IdFree(updates)
    ensures ApplySortUpdates(list, updates, parent).Ok? <==>
            forall k :: 0 <= k < |updates| ==> Targets(list, updates[k].targetId)
    decreases |updates|
  {
    if |updates| > 0 {
      match FindFirst(list, HasId(updates[0].targetId))
      case None =>
        assert !Targets(list, updates[0].targetId);
      case Some(j) =>
        var next := list[j := (list[j] + updates[0].update)["folder" := parent]];
        var rest := updates[1..];
        ApplySortUpdatesSucceedsIffTargetsExist(next, rest, parent);
        MergeStepKeepsIds(list, j, updates[0], parent);
        assert Targets(list, updates[0].targetId) by {
          assert HasId(updates[0].targetId)(list[j]);
        }
        forall k | 0 <= k < |rest|
          ensures Targets(next, rest[k].targetId) <==> Targets(list, updates[k + 1].targetId)
        {
          SameIdsSameTargets(next, list, rest[k].targetId);
        }
    }
  }

  /** Without `_id` in the updates, every entry an update names ends under
      `parent`. */
  lemma {:induction false} ApplySortUpdatesReachesEveryTarget(list: seq<Record>, updates: seq<SortUpdate>, parent: Value)
    requires IdFree(updates)
    ensures var r := ApplySortUpdates(list, updates, parent);
            r.Ok? ==> forall k :: 0 <= k < |updates| ==>
              exists i :: 0 <= i < |list| && HasId(updates[k].targetId)(list[i])
                          && Lookup(r.value[i], "folder") == Some(parent)
    decreases |updates|
  {
    var r := ApplySortUpdates(list, updates, parent);
    if |updates| > 0 && r.Ok? {
      var j := FindFirst(list, HasId(updates[0].targetId)).value;
      var next := list[j := (list[j] + updates[0].update)["folder" := parent]];
      var rest := updates[1..];
      assert r == ApplySortUpdates(next, rest, parent);
      ApplySortUpdatesReachesEveryTarget(next, rest, parent);
      MergeStepKeepsIds(list, j, updates[0], parent);
      forall k | 0 <= k < |updates|
        ensures exists i :: 0 <= i < |list| && HasId(updates[k].targetId)(list[i])
                            && Lookup(r.value[i], "folder") == Some(parent)
      {
        if k == 0 {
          assert Lookup(next[j], "folder") == Some(parent);
          assert HasId(updates[0].targetId)(list[j]) && Lookup(r.value[j], "folder") == Some(parent);
        } else {
          var i :| 0 <= i < |next| && HasId(rest[k - 1].targetId)(next[i])
                   && Lookup(r.value[i], "folder") == Some(parent);
          assert HasId(updates[k].targetId)(list[i]);
        }
      }
    }
  }

  /** Lists with the same ids pointwise find an id at the same index. */
  lemma FindFirstSameIds(a: seq<Record>, b: seq<Record>, id: Option<Value>)
    requires |a| == |b|
    requires forall i :: 0 <= i < |a| ==> Lookup(a[i], "_id") == Lookup(b[i], "_id")
    ensures FindFirst(a, HasId(id)) == FindFirst(b, HasId(id))
  {
    var p := HasId(id);
    assert forall i :: 0 <= i < |a| ==> p(a[i]) == p(b[i]);
    var fa, fb := FindFirst(a, p), FindFirst(b, p);
    if fa.Some? && fb.Some? {
      assert p(b[fa.value]) && p(a[fb.value]);
    }
  }

  /** No update after the `k`-th names the entry whose `_id` is `id`. */
  ghost predicate NamedLastBy(updates: seq<SortUpdate>, k: int, id: Option<Value>)
  {
    forall m :: 0 <= m < |updates| && k < m ==> !LooseEquals(id, updates[m].targetId)
  }

  /** Every key of `u` but `folder` holds its value from `u` in `e`. */
  ghost predicate Carries(e: Record, u: Record)
  {
    forall key :: key in u && key != "folder" ==> Lookup(e, key) == Some(u[key])
  }

  /** The entry the first update is merged into, with `folder` set. */
  function MergeStep(list: seq<Record>, j: nat, u: SortUpdate, parent: Value): seq<Record>
    requires j < |list|
  {
    list[j := (list[j] + u.update)["folder" := parent]]
  }

  /** One unfolding of a merge that completes. */
  lemma MergeUnfolds(list: seq<Record>, updates: seq<SortUpdate>, parent: Value)
    requires |updates| > 0 && ApplySortUpdates(list, updates, parent).Ok?
    ensures FindFirst(list, HasId(updates[0].targetId)).Some?
    ensures var j := FindFirst(list, HasId(updates[0].targetId)).value;
            ApplySortUpdates(list, updates, parent)
            == ApplySortUpdates(MergeStep(list, j, updates[0], parent), updates[1..], parent)
  {
  }

  /** The first update lands in its entry when no later update names it. */
  lemma FirstUpdateLands(list: seq<Record>, updates: seq<SortUpdate>, parent: Value, j: nat)
    requires IdFree(updates) && |updates| > 0 && ApplySortUpdates(list, updates, parent).Ok?
    requires FindFirst(list, HasId(updates[0].targetId)) == Some(j)
    requires NamedLastBy(updates, 0, Lookup(list[j], "_id"))
    ensures Carries(ApplySortUpdates(list, updates, parent).value[j], updates[0].update)
  {
    MergeUnfolds(list, updates, parent);
    var next := MergeStep(list, j, updates[0], parent);
    var rest := updates[1..];
    MergeStepKeepsIds(list, j, updates[0], parent);
    assert forall m :: 0 <= m < |rest| ==> !HasId(rest[m].targetId)(next[j]) by {
      forall m | 0 <= m < |rest|
        ensures !HasId(rest[m].targetId)(next[j])
      {
        assert rest[m] == updates[m + 1];
      }
    }
    ApplySortUpdatesTouchesOnlyTargets(next, rest, parent);
    assert ApplySortUpdates(next, rest, parent).value[j] == next[j];
  }

  /** Without `_id` in the updates, the fields of the `k`-th update (the new
      sort key among them) land in the entry `i` its id finds first, unless
      a later update names that entry again. */
  lemma {:induction false} MergedUpdateLands(list: seq<Record>, updates: seq<SortUpdate>, parent: Value, k: nat, i: nat)
    requires IdFree(updates) && ApplySortUpdates(list, updates, parent).Ok?
    requires k < |updates| && FindFirst(list, HasId(updates[k].targetId)) == Some(i)
    requires NamedLastBy(updates, k, Lookup(list[i], "_id"))
    ensures Carries(ApplySortUpdates(list, updates, parent).value[i], updates[k].update)
    decreases |updates|, 1
  {
    if k == 0 {
      FirstUpdateLands(list, updates, parent, i);
    } else {
      LaterUpdateLands(list, updates, parent, k, i);
    }
  }

  /** A later update lands as it does in the rest of the updates, applied
      after the first merge step. */
  lemma {:induction false} LaterUpdateLands(list: seq<Record>, updates: seq<SortUpdate>, parent: Value, k: nat, i: nat)
    requires IdFree(updates) && ApplySortUpdates(list, updates, parent).Ok?
    requires 0 < k < |updates| && FindFirst(list, HasId(updates[k].targetId)) == Some(i)
    requires NamedLastBy(updates, k, Lookup(list[i], "_id"))
    ensures Carries(ApplySortUpdates(list, updates, parent).value[i], updates[k].update)
    decreases |updates|, 0
  {
    MergeUnfolds(list, updates, parent);
    var j := FindFirst(list, HasId(updates[0].targetId)).value;
    var next := MergeStep(list, j, updates[0], parent);
    LaterUpdateAfterStep(list, updates, parent, j, k, i);
    LandsInRest(next, updates, parent, k, i);
  }

  /** The `k`-th update lands in entry `i` of the merge of the rest into
      `next`, the list after the first step. */
  lemma {:induction false} LandsInRest(next: seq<Record>, updates: seq<SortUpdate>, parent: Value, k: nat, i: nat)
    requires 0 < k < |updates| && IdFree(updates[1..])
    requires ApplySortUpdates(next, updates[1..], parent).Ok?
    requires FindFirst(next, HasId(updates[k].targetId)) == Some(i)
    requires NamedLastBy(updates[1..], k - 1, Lookup(next[i], "_id"))
    ensures Carries(ApplySortUpdates(next, updates[1..], parent).value[i], updates[k].update)
    decreases |updates| - 1, 2
  {
    assert updates[1..][k - 1] == updates[k];
    MergedUpdateLands(next, updates[1..], parent, k - 1, i);
  }

  /** After the first merge step, the `k`-th update is the `k - 1`-th of the
      rest, and it still finds entry `i` first, which no later update names. */
  lemma LaterUpdateAfterStep(list: seq<Record>, updates: seq<SortUpdate>, parent: Value, j: nat, k: nat, i: nat)
    requires IdFree(updates) && j < |list| && 0 < k < |updates|
    requires FindFirst(list, HasId(updates[k].targetId)) == Some(i)
    requires NamedLastBy(updates, k, Lookup(list[i], "_id"))
    ensures var next := MergeStep(list, j, updates[0], parent);
            && IdFree(updates[1..])
            && updates[1..][k - 1] == updates[k]
            && FindFirst(next, HasId(updates[1..][k - 1].targetId)) == Some(i)
            && Lookup(next[i], "_id") == Lookup(list[i], "_id")
            && NamedLastBy(updates[1..], k - 1, Lookup(list[i], "_id"))
  {
    var next := MergeStep(list, j, updates[0], parent);
    var rest := updates[1..];
    MergeStepKeepsIds(list, j, updates[0], parent);
    FindFirstSameIds(next, list, updates[k].targetId);
    forall m | 0 <= m < |rest| && k - 1 < m
      ensures !LooseEquals(Lookup(list[i], "_id"), rest[m].targetId)
    {
      assert rest[m] == updates[m + 1];
    }
  }

  /** The same for every update at once. */
  lemma ApplySortUpdatesMergesEachUpdate(list: seq<Record>, updates: seq<SortUpdate>, parent: Value)
    requires IdFree(updates)
    ensures var r := ApplySortUpdates(list, updates, parent);
            r.Ok? ==> forall k: nat, i: nat ::
              (k < |updates| && FindFirst(list, HasId(updates[k].targetId)) == Some(i) &&
               NamedLastBy(updates, k, Lookup(list[i], "_id"))) ==> Carries(r.value[i], updates[k].update)
  {
    var r := ApplySortUpdates(list, updates, parent);
    if r.Ok? {
      forall k: nat, i: nat | k < |updates| && FindFirst(list, HasId(updates[k].targetId)) == Some(i) &&
                              NamedLastBy(updates, k, Lookup(list[i], "_id"))
        ensures Carries(r.value[i], updates[k].update)
      {
        MergedUpdateLands(list, updates, parent, k, i);
      }
    }
  }

  /** No update whose id finds entry `i` first writes `key`. */
  ghost predicate Unwritten(list: seq<Record>, updates: seq<SortUpdate>, i: int, key: string)
  {
    forall k :: 0 <= k < |updates| && FindFirst(list, HasId(updates[k].targetId)) == Some(i) ==>
      key !in updates[k].update
  }

  /** After the first merge step, a key no update writes into entry `i` is
      still one no remaining update writes there. */
  lemma UnwrittenAfterStep(list: seq<Record>, updates: seq<SortUpdate>, parent: Value, j: nat, i: int, key: string)
    requires IdFree(updates) && j < |list| && |updates| > 0
    requires Unwritten(list, updates, i, key)
    ensures IdFree(updates[1..])
    ensures Unwritten(MergeStep(list, j, updates[0], parent), updates[1..], i, key)
  {
    var next := MergeStep(list, j, updates[0], parent);
    var rest := updates[1..];
    MergeStepKeepsIds(list, j, updates[0], parent);
    forall m | 0 <= m < |rest| && FindFirst(next, HasId(rest[m].targetId)) == Some(i)
      ensures key !in rest[m].update
    {
      FindFirstSameIds(next, list, rest[m].targetId);
      assert rest[m] == updates[m + 1];
    }
  }

  /** Without `_id` in the updates, `mergeObject` only overlays: a field
      other than `folder` that no update writes into an entry keeps its
      value there. */
  lemma {:induction false} ApplySortUpdatesKeepsUnwritten(list: seq<Record>, updates: seq<SortUpdate>, parent: Value)
    requires IdFree(updates)
    ensures var r := ApplySortUpdates(list, updates, parent);
            r.Ok? ==> forall i, key :: 0 <= i < |list| && key != "folder" && Unwritten(list, updates, i, key) ==>
              Lookup(r.value[i], key) == Lookup(list[i], key)
    decreases |updates|
  {
    var r := ApplySortUpdates(list, updates, parent);
    if |updates| > 0 && r.Ok? {
      MergeUnfolds(list, updates, parent);
      var j := FindFirst(list, HasId(updates[0].targetId)).value;
      var next := MergeStep(list, j, updates[0], parent);
      forall i, key | 0 <= i < |list| && key != "folder" && Unwritten(list, updates, i, key)
        ensures Lookup(r.value[i], key) == Lookup(list[i], key)
      {
        UnwrittenAfterStep(list, updates, parent, j, i, key);
        ApplySortUpdatesKeepsUnwritten(next, updates[1..], parent);
        assert Lookup(r.value[i], key) == Lookup(next[i], key);
        if i == j {
          assert key !in updates[0].update;
        }
      }
    }
  }

  /** Without `_id` in the updates, only an entry that some update's id
      finds first changes; a later entry with the same id stays as it is. */
  lemma {:induction false} ApplySortUpdatesTouchesOnlyFirstMatches(list: seq<Record>, updates: seq<SortUpdate>, parent: Value)
    requires IdFree(updates)
    ensures var r := ApplySortUpdates(list, updates, parent);
            r.Ok? ==> forall i :: 0 <= i < |list| && r.value[i] != list[i] ==>
              exists k :: 0 <= k < |updates| && FindFirst(list, HasId(updates[k].targetId)) == Some(i)
    decreases |updates|
  {
    var r := ApplySortUpdates(list, updates, parent);
    if |updates| > 0 && r.Ok? {
      MergeUnfolds(list, updates, parent);
      var j := FindFirst(list, HasId(updates[0].targetId)).value;
      var next := MergeStep(list, j, updates[0], parent);
      var rest := updates[1..];
      assert IdFree(rest) by {
        forall m | 0 <= m < |rest| ensures "_id" !in rest[m].update {
          assert rest[m] == updates[m + 1];
        }
      }
      ApplySortUpdatesTouchesOnlyFirstMatches(next, rest, parent);
      MergeStepKeepsIds(list, j, updates[0], parent);
      forall i | 0 <= i < |list| && r.value[i] != list[i]
        ensures exists k :: 0 <= k < |updates| && FindFirst(list, HasId(updates[k].targetId)) == Some(i)
      {
        if i != j {
          assert next[i] == list[i];
          var m :| 0 <= m < |rest| && FindFirst(next, HasId(rest[m].targetId)) == Some(i);
          FindFirstSameIds(next, list, rest[m].targetId);
          assert rest[m] == updates[m + 1];
          assert FindFirst(list, HasId(updates[m + 1].targetId)) == Some(i);
        }
      }
    }
  }

  /** What a completed merge of `updates` into `list` gives: the ids stay,
      only entries some update finds first change, fields no update writes
      keep their values, every named entry is filed under `parent`,
      and each update's fields land in the entry it names when no later
      update names that entry again. */
  ghost predicate SortMerged(list: seq<Record>, updates: seq<SortUpdate>, parent: Value, merged: seq<Record>)
  {
    && |merged| == |list|
    && (forall i :: 0 <= i < |list| ==>
          && Lookup(merged[i], "_id") == Lookup(list[i], "_id")
          && (merged[i] != list[i] ==> exists k :: 0 <= k < |updates| && HasId(updates[k].targetId)(list[i])))
    && (forall i :: 0 <= i < |list| && merged[i] != list[i] ==>
          exists k :: 0 <= k < |updates| && FindFirst(list, HasId(updates[k].targetId)) == Some(i))
    && (forall i, key :: 0 <= i < |list| && key != "folder" && Unwritten(list, updates, i, key) ==>
          Lookup(merged[i], key) == Lookup(list[i], key))
    && (forall k :: 0 <= k < |updates| ==>
          exists i :: 0 <= i < |list| && HasId(updates[k].targetId)(list[i])
                      && Lookup(merged[i], "folder") == Some(parent))
    && (forall k: nat, i: nat ::
          (k < |updates| && FindFirst(list, HasId(updates[k].targetId)) == Some(i) &&
           NamedLastBy(updates, k, Lookup(list[i], "_id"))) ==> Carries(merged[i], updates[k].update))
  }

  /** The merge's outcome, stated for callers whose updates may write `_id`. */
  lemma MergeOutcome(list: seq<Record>, updates: seq<SortUpdate>, parent: Value)
    ensures IdFree(updates) ==>
              (ApplySortUpdates(list, updates, parent).Ok? <==>
               forall k :: 0 <= k < |updates| ==> Targets(list, updates[k].targetId))
    ensures var r := ApplySortUpdates(list, updates, parent);
            IdFree(updates) && r.Ok? ==> SortMerged(list, updates, parent, r.value)
  {
    if IdFree(updates) {
      ApplySortUpdatesSucceedsIffTargetsExist(list, updates, parent);
      ApplySortUpdatesTouchesOnlyTargets(list, updates, parent);
      ApplySortUpdatesReachesEveryTarget(list, updates, parent);
      ApplySortUpdatesMergesEachUpdate(list, updates, parent);
      ApplySortUpdatesKeepsUnwritten(list, updates, parent);
      ApplySortUpdatesTouchesOnlyFirstMatches(list, updates, parent);
    }
  }

  // ---------------------------------------------------------------------
  // Dropping a template (lines 225-268)

  /** What the template drop resolves before calling the host sort: the
      moved payload, the sort options, and the value every sorted entry's
      `folder` is set to. */
  datatype DocumentPlan = DocumentPlan(moved: Value, request: SortRequest, parent: Value)

  /** The drop is relative to another template: `target.dataset.documentId`
      is truthy. */
  predicate IsRelative(target: Option<DropTarget>)
  {
    target.Some? && TruthyAttr(target.value.documentId)
  }

  /** Line 241: the payload's `_id` is strictly the target template's id. */
  predicate IsSelfDrop(target: Option<DropTarget>, payload: Option<Value>)
  {
    IsRelative(target) && StrictEquals(OptionalProp(payload, "_id"), Attr(target.value.documentId))
  }

  /** Line 230: the folder record of the closest folder element; `null`
      without one, `undefined` when no folder has its id. */
  function ClosestFolder(folders: seq<Record>, target: Option<DropTarget>): (v: Option<Value>)
    ensures target.None? || target.value.closestFolder.None? ==> v == Some(Null)
    ensures target.Some? && target.value.closestFolder.Some? ==>
              var id := Attr(target.value.closestFolder.value.folderId);
              && (v.None? <==> forall i :: 0 <= i < |folders| ==> !HasId(id)(folders[i]))
              && (v.Some? ==> exists i :: 0 <= i < |folders| && HasId(id)(folders[i]) && v == Some(Obj(folders[i]))
                                          && forall j :: 0 <= j < i ==> !HasId(id)(folders[j]))
  {
    if target.None? || target.value.closestFolder.None? then Some(Null)
    else
      match FindFirst(folders, HasId(Attr(target.value.closestFolder.value.folderId)))
      case None => None
      case Some(i) => Some(Obj(folders[i]))
  }

  /** `doc => doc._id !== movedId && doc.folder === key` (line 251). */
  function DocumentSibling(movedId: Option<Value>, key: Option<Value>): Record -> bool
  {
    d => !StrictEquals(Lookup(d, "_id"), movedId) && StrictEquals(Lookup(d, "folder"), key)
  }

  /** The siblings are exactly the templates of `collection` whose `folder`
      is strictly `key`, other than the moved one (line 251). */
  ghost predicate SiblingsExactly(collection: seq<Record>, payload: Option<Value>, key: Option<Value>,
                                  siblings: seq<Record>)
  {
    && (forall d :: d in siblings ==> d in collection && DocumentSibling(OptionalProp(payload, "_id"), key)(d))
    && forall i :: 0 <= i < |collection| && DocumentSibling(OptionalProp(payload, "_id"), key)(collection[i]) ==>
         collection[i] in siblings
  }

  /** Lines 251-256 for a resolved destination: siblings are the templates
      whose `folder` is strictly `key`, other than the moved one. */
  function DocumentPlanFor(collection: seq<Record>, moved: Value, target: SortTarget,
                           key: Option<Value>, parent: Value): (r: DocumentPlan)
    ensures r.moved == moved && r.parent == parent && r.request.target == target
    ensures SiblingsExactly(collection, Some(moved), key, r.request.siblings)
  {
    DocumentPlan(moved,
      SortRequest("sort", None, target, None, Filter(collection, DocumentSibling(OptionalProp(Some(moved), "_id"), key))),
      parent)
  }

  /** Lines 228-256, with the `folder` a relative drop resolves to given by
      `relativeFolder` applied to the target template. */
  function ResolveDocumentDropWith(collection: seq<Record>, folders: seq<Record>,
                                   target: Option<DropTarget>, payload: Option<Value>,
                                   relativeFolder: Record -> Option<Value>): (r: Result<DocumentPlan>)
    ensures !Truthy(payload) ==> r == Halted(Returned)
    ensures Truthy(payload) && IsSelfDrop(target, payload) ==> r == Halted(Returned)
    ensures r.Ok? ==> Truthy(payload) && r.value.moved == payload.value && !IsSelfDrop(target, payload)
    ensures r.Ok? && IsRelative(target) ==>
              var found := FindFirst(collection, HasId(Attr(target.value.documentId)));
              found.Some? &&
              var folder := relativeFolder(collection[found.value]);
              && r.value.request.target == TargetRecord(collection[found.value])
              && r.value.parent == OrNull(OptionalProp(folder, "_id"))
              && SiblingsExactly(collection, payload, OptionalProp(folder, "id"), r.value.request.siblings)
    ensures r.Ok? && !IsRelative(target) ==>
              var folder := ClosestFolder(folders, target);
              && r.value.request.target == NoTarget
              && r.value.parent == OrNull(OptionalProp(folder, "_id"))
              && SiblingsExactly(collection, payload, OptionalProp(folder, "id"), r.value.request.siblings)
    ensures Truthy(payload) && !IsRelative(target) ==> r.Ok?
    ensures IsRelative(target) && Truthy(payload) && !IsSelfDrop(target, payload) ==>
              (r == Halted(Threw) <==> FindFirst(collection, HasId(Attr(target.value.documentId))).None?)
    ensures IsRelative(target) && Truthy(payload) && !IsSelfDrop(target, payload) ==>
              (r.Ok? <==> FindFirst(collection, HasId(Attr(target.value.documentId))).Some?)
  {
    if !Truthy(payload) then Halted(Returned)
    else if IsRelative(target) then
      if IsSelfDrop(target, payload) then Halted(Returned)
      else
        match FindFirst(collection, HasId(Attr(target.value.documentId)))
        case None => Halted(Threw)
        case Some(t) =>
          var folder := relativeFolder(collection[t]);
          Ok(DocumentPlanFor(collection, payload.value, TargetRecord(collection[t]),
                             OptionalProp(folder, "id"), OrNull(OptionalProp(folder, "_id"))))
    else
      var folder := ClosestFolder(folders, target);
      Ok(DocumentPlanFor(collection, payload.value, NoTarget,
                         OptionalProp(folder, "id"), OrNull(OptionalProp(folder, "_id"))))
  }

  /** Line 244 as written: `folder` becomes the target template's `folder`
      field, an id string. */
  function TargetFolderField(d: Record): Option<Value>
  {
    Lookup(d, "folder")
  }

  /** The evident intent of line 244: the folder record whose `_id` is the
      target template's `folder`. */
  function TargetFolderRecord(folders: seq<Record>): Record -> Option<Value>
  {
    d => match FindFirst(folders, HasId(Lookup(d, "folder")))
         case None => None
         case Some(i) => Some(Obj(folders[i]))
  }

  function ResolveDocumentDrop(collection: seq<Record>, folders: seq<Record>,
                               target: Option<DropTarget>, payload: Option<Value>): Result<DocumentPlan>
  {
    ResolveDocumentDropWith(collection, folders, target, payload, TargetFolderField)
  }

  function ResolveDocumentDropCorrected(collection: seq<Record>, folders: seq<Record>,
                                        target: Option<DropTarget>, payload: Option<Value>): Result<DocumentPlan>
  {
    ResolveDocumentDropWith(collection, folders, target, payload, TargetFolderRecord(folders))
  }

  /** As written, a relative drop onto a template whose `folder` is an id
      string (or unset) sends the moved template to the root, and its
      siblings are the templates with no `folder` field at all. */
  lemma RelativeDocumentDropGoesToRoot(collection: seq<Record>, folders: seq<Record>,
                                       target: Option<DropTarget>, payload: Option<Value>)
    requires IsRelative(target)
    requires var found := FindFirst(collection, HasId(Attr(target.value.documentId)));
             found.Some? ==> !IsObject(Lookup(collection[found.value], "folder"))
    ensures var r := ResolveDocumentDrop(collection, folders, target, payload);
            r.Ok? ==>
              && r.value.parent == Null
              && forall d :: d in r.value.request.siblings ==> Lookup(d, "folder").None?
  {
    var r := ResolveDocumentDrop(collection, folders, target, payload);
    if r.Ok? {
      var found := FindFirst(collection, HasId(Attr(target.value.documentId)));
      var folder := Lookup(collection[found.value], "folder");
      assert OptionalProp(folder, "id") == None && OptionalProp(folder, "_id") == None;
    }
  }

  /** The corrected reading of line 244 finds the folder a template is filed
      in, and that folder's `_id` and `id` are the template's `folder`. */
  lemma TargetFolderIsNamed(folders: seq<Record>, d: Record, folderId: string)
    requires Lookup(d, "folder") == Some(Str(folderId))
    requires forall f :: f in folders && Lookup(f, "_id") == Some(Str(folderId)) ==> Lookup(f, "id") == Some(Str(folderId))
    requires exists f :: f in folders && Lookup(f, "_id") == Some(Str(folderId))
    ensures var folder := TargetFolderRecord(folders)(d);
            OptionalProp(folder, "_id") == Some(Str(folderId)) && OptionalProp(folder, "id") == Some(Str(folderId))
  {
    var id := Some(Str(folderId));
    var f :| f in folders && Lookup(f, "_id") == id;
    var k :| 0 <= k < |folders| && folders[k] == f;
    assert HasId(id)(folders[k]);
    var j := FindFirst(folders, HasId(id)).value;
    assert HasId(id)(folders[j]);
    assert TargetFolderRecord(folders)(d) == Some(Obj(folders[j]));
    assert folders[j] in folders;
  }

  /** Corrected, a relative drop onto a template filed in an existing folder
      (whose `id` and `_id` are its id string, as every created folder's are)
      files the moved template in that folder, among the templates already
      there. */
  lemma RelativeDocumentDropJoinsTargetFolder(collection: seq<Record>, folders: seq<Record>,
                                              target: Option<DropTarget>, payload: Option<Value>,
                                              folderId: string)
    requires IsRelative(target) && folderId != ""
    requires var found := FindFirst(collection, HasId(Attr(target.value.documentId)));
             found.Some? ==> Lookup(collection[found.value], "folder") == Some(Str(folderId))
    requires forall f :: f in folders && Lookup(f, "_id") == Some(Str(folderId)) ==> Lookup(f, "id") == Some(Str(folderId))
    requires exists f :: f in folders && Lookup(f, "_id") == Some(Str(folderId))
    ensures var r := ResolveDocumentDropCorrected(collection, folders, target, payload);
            r.Ok? ==>
              && r.value.parent == Str(folderId)
              && forall d :: d in r.value.request.siblings ==> Lookup(d, "folder") == Some(Str(folderId))
  {
    var r := ResolveDocumentDropCorrected(collection, folders, target, payload);
    if r.Ok? {
      var found := FindFirst(collection, HasId(Attr(target.value.documentId)));
      var id := Some(Str(folderId));
      TargetFolderIsNamed(folders, collection[found.value], folderId);
      assert r.value.parent == OrNull(id) == Str(folderId);
      forall d | d in r.value.request.siblings
        ensures Lookup(d, "folder") == id
      {
        assert StrictEquals(Lookup(d, "folder"), id);
      }
    }
  }

  /** `_handleDroppedDocument`, resolving a relative drop with
      `relativeFolder`: the updated template list written back, or no
      write. */
  function DropDocumentWith(collection: seq<Record>, folders: seq<Record>, target: Option<DropTarget>,
                            payload: Option<Value>, sorter: Sorter,
                            relativeFolder: Record -> Option<Value>): (r: Result<seq<Record>>)
    ensures !Truthy(payload) ==> r == Halted(Returned)
    ensures Truthy(payload) && IsSelfDrop(target, payload) ==> r == Halted(Returned)
    ensures r.Ok? ==>
              var plan := ResolveDocumentDropWith(collection, folders, target, payload, relativeFolder);
              && plan.Ok?
              && |r.value| == |collection|
              && forall i :: 0 <= i < |collection| ==>
                   r.value[i] == collection[i] || Lookup(r.value[i], "folder") == Some(plan.value.parent)
    ensures var plan := ResolveDocumentDropWith(collection, folders, target, payload, relativeFolder);
            plan.Ok? && IdFree(sorter(plan.value.moved, plan.value.request)) ==>
              var updates := sorter(plan.value.moved, plan.value.request);
              (r.Ok? <==> forall k :: 0 <= k < |updates| ==> Targets(collection, updates[k].targetId))
    ensures var plan := ResolveDocumentDropWith(collection, folders, target, payload, relativeFolder);
            plan.Halted? ==> r == Halted(plan.how)
    ensures var plan := ResolveDocumentDropWith(collection, folders, target, payload, relativeFolder);
            plan.Ok? && IdFree(sorter(plan.value.moved, plan.value.request)) && r.Ok? ==>
              SortMerged(collection, sorter(plan.value.moved, plan.value.request), plan.value.parent, r.value)
  {
    match ResolveDocumentDropWith(collection, folders, target, payload, relativeFolder)
    case Halted(h) => Halted(h)
    case Ok(plan) =>
      MergeOutcome(collection, sorter(plan.moved, plan.request), plan.parent);
      ApplySortUpdates(collection, sorter(plan.moved, plan.request), plan.parent)
  }

  /** `_handleDroppedDocument` as written. */
  function DropDocument(collection: seq<Record>, folders: seq<Record>, target: Option<DropTarget>,
                        payload: Option<Value>, sorter: Sorter): Result<seq<Record>>
  {
    DropDocumentWith(collection, folders, target, payload, sorter, TargetFolderField)
  }

  /** `_handleDroppedDocument` with line 244 corrected. */
  function DropDocumentCorrected(collection: seq<Record>, folders: seq<Record>, target: Option<DropTarget>,
                                 payload: Option<Value>, sorter: Sorter): Result<seq<Record>>
  {
    DropDocumentWith(collection, folders, target, payload, sorter, TargetFolderRecord(folders))
  }

  // ---------------------------------------------------------------------
  // Dropping a folder (lines 270-329)

  /** Where a folder drop lands: `sortData.target` and `sortData.parentId`. */
  datatype Destination = Destination(target: SortTarget, parentId: Option<Value>)

  /** What the folder drop resolves before calling the host sort. */
  datatype FolderPlan = FolderPlan(moved: Value, request: SortRequest, parent: Value)

  /** The drop is onto a folder row: `target.dataset.folderId` is truthy. */
  predicate IsFolderTarget(target: Option<DropTarget>)
  {
    target.Some? && TruthyAttr(target.value.folderId)
  }

  /** Line 295: `Number(target.dataset.folderDepth) >= CONST.FOLDER_MAX_DEPTH`
      (false for NaN). */
  predicate AtMaxDepth(target: Option<DropTarget>, maxDepth: int)
  {
    target.Some? && target.value.folderDepth.Some? && target.value.folderDepth.value >= maxDepth
  }

  /** `f => f.id == folderId` (line 285 finds by `id`, not `_id`). */
  function HasFolderId(folderId: Option<Value>): Record -> bool
  {
    f => LooseEquals(Lookup(f, "id"), folderId)
  }

  /** The folder row dropped on, when it is in the list. */
  function TargetFolder(folders: seq<Record>, target: Option<DropTarget>): Option<nat>
    requires target.Some?
  {
    FindFirst(folders, HasFolderId(Attr(target.value.folderId)))
  }

  /** Line 290 as written: `targetFolder.folder?._id`, on an id string. */
  function ParentOfCollapsed(f: Record): Option<Value>
  {
    OptionalProp(Lookup(f, "folder"), "_id")
  }

  /** The evident intent of line 290: the collapsed folder's own parent id. */
  function ParentOfCollapsedCorrected(f: Record): Option<Value>
  {
    Lookup(f, "folder")
  }

  /** Lines 277-305: onto a collapsed folder row, beside it (parent given by
      `collapsedParent`); onto an expanded one, inside it unless it is at the
      maximum depth; elsewhere, into the closest folder element. A folder row
      missing from the list throws. */
  function FolderDestinationWith(folders: seq<Record>, target: Option<DropTarget>, maxDepth: int,
                                 collapsedParent: Record -> Option<Value>): (r: Result<Destination>)
    ensures IsFolderTarget(target) && !target.value.collapsed && AtMaxDepth(target, maxDepth) ==>
              r == Halted(Returned)
    ensures r.Halted? ==> IsFolderTarget(target)
    ensures r.Halted? && r.how == Threw ==> TargetFolder(folders, target).None?
    ensures IsFolderTarget(target) && (target.value.collapsed || !AtMaxDepth(target, maxDepth)) ==>
              (r.Ok? <==> TargetFolder(folders, target).Some?)
    ensures (IsFolderTarget(target) && (target.value.collapsed || !AtMaxDepth(target, maxDepth))
             && TargetFolder(folders, target).None?) ==> r == Halted(Threw)
    ensures IsFolderTarget(target) && r.Ok? ==>
              var found := TargetFolder(folders, target);
              found.Some? &&
              var f := folders[found.value];
              && HasFolderId(Attr(target.value.folderId))(f)
              && (target.value.collapsed ==> r.value == Destination(TargetRecord(f), collapsedParent(f)))
              && (!target.value.collapsed ==> r.value == Destination(NoTarget, Lookup(f, "_id")))
    ensures !IsFolderTarget(target) ==>
              var closest := if target.Some? then target.value.closestFolder else None;
              && r.Ok?
              && r.value.parentId == (if closest.Some? then Attr(closest.value.folderId) else Some(Null))
              && r.value.target == (if closest.Some? && closest.value.collapsed then TargetElement(closest.value) else NoTarget)
  {
    var closest := if target.Some? then target.value.closestFolder else None;
    if IsFolderTarget(target) then
      var found := TargetFolder(folders, target);
      if target.value.collapsed then
        if found.None? then Halted(Threw)
        else Ok(Destination(TargetRecord(folders[found.value]), collapsedParent(folders[found.value])))
      else if AtMaxDepth(target, maxDepth) then Halted(Returned)
      else if found.None? then Halted(Threw)
      else Ok(Destination(NoTarget, Lookup(folders[found.value], "_id")))
    else
      Ok(Destination(
        if closest.Some? && closest.value.collapsed then TargetElement(closest.value) else NoTarget,
        if closest.Some? then Attr(closest.value.folderId) else Some(Null)))
  }

  /** `f => f.folder === parentId && f.id !== moved` (line 313): the second
      test compares an id with the moved folder itself. */
  function FolderSibling(parentId: Option<Value>, moved: Option<Value>): Record -> bool
  {
    f => StrictEquals(Lookup(f, "folder"), parentId) && !StrictEquals(Lookup(f, "id"), moved)
  }

  /** Lines 308-317 for a resolved destination: no move when the parent is
      the moved folder's own id; otherwise the siblings under the parent. */
  function FolderPlanFrom(folders: seq<Record>, payload: Option<Value>, dest: Destination): (r: Result<FolderPlan>)
    ensures IsNullish(payload) ==> r == Halted(Threw)
    ensures !IsNullish(payload) && StrictEquals(dest.parentId, OptionalProp(payload, "_id")) ==> r == Halted(Returned)
    ensures !IsNullish(payload) && !StrictEquals(dest.parentId, OptionalProp(payload, "_id")) ==> r.Ok?
    ensures r.Ok? ==>
              && r.value.moved == payload.value
              && r.value.request.parentId == dest.parentId
              && r.value.request.target == dest.target
              && r.value.request.sortBefore == Some(true)
              && (forall f :: f in r.value.request.siblings ==> f in folders && FolderSibling(dest.parentId, payload)(f))
              && (forall i :: 0 <= i < |folders| && FolderSibling(dest.parentId, payload)(folders[i]) ==>
                    folders[i] in r.value.request.siblings)
    ensures r.Ok? ==>
              var id := OptionalProp(payload, "_id");
              id.Some? && id.value.Str? && id.value.s != "" ==> r.value.parent != id.value
  {
    if IsNullish(payload) then Halted(Threw)
    else if StrictEquals(dest.parentId, OptionalProp(payload, "_id")) then Halted(Returned)
    else
      var siblings := Filter(folders, FolderSibling(dest.parentId, payload));
      Ok(FolderPlan(payload.value, SortRequest("sort", Some(true), dest.target, dest.parentId, siblings),
                    OrNull(dest.parentId)))
  }

  /** Lines 271-317, with the parent of a drop onto a collapsed folder given
      by `collapsedParent`. */
  function ResolveFolderDropWith(folders: seq<Record>, target: Option<DropTarget>, documentName: Option<Value>,
                                 payload: Option<Value>, maxDepth: int,
                                 collapsedParent: Record -> Option<Value>): (r: Result<FolderPlan>)
    ensures !StrictEquals(documentName, Some(Str("Tile"))) ==> r == Halted(Returned)
    ensures StrictEquals(documentName, Some(Str("Tile"))) ==>
              var dest := FolderDestinationWith(folders, target, maxDepth, collapsedParent);
              dest.Halted? ==> r == Halted(dest.how)
    ensures r.Ok? <==>
              && StrictEquals(documentName, Some(Str("Tile")))
              && !IsNullish(payload)
              && var dest := FolderDestinationWith(folders, target, maxDepth, collapsedParent);
              && dest.Ok?
              && !StrictEquals(dest.value.parentId, OptionalProp(payload, "_id"))
    ensures r.Ok? ==> r.value.moved == payload.value && r.value.parent == OrNull(r.value.request.parentId)
  {
    if !StrictEquals(documentName, Some(Str("Tile"))) then Halted(Returned)
    else
      match FolderDestinationWith(folders, target, maxDepth, collapsedParent)
      case Halted(h) => Halted(h)
      case Ok(dest) => FolderPlanFrom(folders, payload, dest)
  }

  /** `_handleDroppedFolder`, with the parent of a drop onto a collapsed
      folder given by `collapsedParent`: the updated folder list written
      back, or no write. */
  function DropFolderWith(folders: seq<Record>, target: Option<DropTarget>, documentName: Option<Value>,
                          payload: Option<Value>, maxDepth: int, sorter: Sorter,
                          collapsedParent: Record -> Option<Value>): (r: Result<seq<Record>>)
    ensures !StrictEquals(documentName, Some(Str("Tile"))) ==> r == Halted(Returned)
    ensures (StrictEquals(documentName, Some(Str("Tile"))) && IsFolderTarget(target) &&
             !target.value.collapsed && AtMaxDepth(target, maxDepth)) ==> r == Halted(Returned)
    ensures StrictEquals(documentName, Some(Str("Tile"))) && !IsNullish(payload) ==>
              var dest := FolderDestinationWith(folders, target, maxDepth, collapsedParent);
              dest.Ok? && StrictEquals(dest.value.parentId, OptionalProp(payload, "_id")) ==> r == Halted(Returned)
    ensures r.Ok? ==>
              var plan := ResolveFolderDropWith(folders, target, documentName, payload, maxDepth, collapsedParent);
              && plan.Ok?
              && |r.value| == |folders|
              && (forall i :: 0 <= i < |folders| ==>
                    r.value[i] == folders[i] || Lookup(r.value[i], "folder") == Some(plan.value.parent))
              && (plan.value.parent == OrNull(plan.value.request.parentId))
    ensures var plan := ResolveFolderDropWith(folders, target, documentName, payload, maxDepth, collapsedParent);
            plan.Ok? && IdFree(sorter(plan.value.moved, plan.value.request)) ==>
              var updates := sorter(plan.value.moved, plan.value.request);
              (r.Ok? <==> forall k :: 0 <= k < |updates| ==> Targets(folders, updates[k].targetId))
    ensures var plan := ResolveFolderDropWith(folders, target, documentName, payload, maxDepth, collapsedParent);
            plan.Halted? ==> r == Halted(plan.how)
    ensures var plan := ResolveFolderDropWith(folders, target, documentName, payload, maxDepth, collapsedParent);
            plan.Ok? && IdFree(sorter(plan.value.moved, plan.value.request)) && r.Ok? ==>
              SortMerged(folders, sorter(plan.value.moved, plan.value.request), plan.value.parent, r.value)
  {
    match ResolveFolderDropWith(folders, target, documentName, payload, maxDepth, collapsedParent)
    case Halted(h) => Halted(h)
    case Ok(plan) =>
      MergeOutcome(folders, sorter(plan.moved, plan.request), plan.parent);
      ApplySortUpdates(folders, sorter(plan.moved, plan.request), plan.parent)
  }

  /** `_handleDroppedFolder` as written. */
  function DropFolder(folders: seq<Record>, target: Option<DropTarget>, documentName: Option<Value>,
                      payload: Option<Value>, maxDepth: int, sorter: Sorter): Result<seq<Record>>
  {
    DropFolderWith(folders, target, documentName, payload, maxDepth, sorter, ParentOfCollapsed)
  }

  /** `_handleDroppedFolder` with line 290 corrected. */
  function DropFolderCorrected(folders: seq<Record>, target: Option<DropTarget>, documentName: Option<Value>,
                               payload: Option<Value>, maxDepth: int, sorter: Sorter): Result<seq<Record>>
  {
    DropFolderWith(folders, target, documentName, payload, maxDepth, sorter, ParentOfCollapsedCorrected)
  }

  /** As written, the identity test of line 313 never holds for a folder
      payload: the siblings are every folder under the parent, the moved one
      included. */
  lemma SiblingFilterKeepsMovedFolder(folders: seq<Record>, payload: Option<Value>, dest: Destination)
    requires IsObject(payload)
    ensures var r := FolderPlanFrom(folders, payload, dest);
            r.Ok? ==> forall i :: 0 <= i < |folders| ==>
              (folders[i] in r.value.request.siblings <==> StrictEquals(Lookup(folders[i], "folder"), dest.parentId))
  {
  }

  /** As written, a drop onto a collapsed folder whose `folder` is an id
      string (or unset) moves the dropped folder to the root instead of
      beside the collapsed one. */
  lemma CollapsedFolderDropGoesToRoot(folders: seq<Record>, target: Option<DropTarget>, documentName: Option<Value>,
                                      payload: Option<Value>, maxDepth: int)
    requires IsFolderTarget(target) && target.value.collapsed
    requires var found := TargetFolder(folders, target);
             found.Some? ==> !IsObject(Lookup(folders[found.value], "folder"))
    ensures var r := ResolveFolderDropWith(folders, target, documentName, payload, maxDepth, ParentOfCollapsed);
            r.Ok? ==> r.value.parent == Null && r.value.request.parentId == None
  {
  }

  /** Corrected, a drop onto a collapsed folder filed under a parent places
      the dropped folder under that same parent, beside the collapsed one. */
  lemma CollapsedFolderDropStaysBeside(folders: seq<Record>, target: Option<DropTarget>, documentName: Option<Value>,
                                       payload: Option<Value>, maxDepth: int, parentId: string)
    requires IsFolderTarget(target) && target.value.collapsed && parentId != ""
    requires var found := TargetFolder(folders, target);
             found.Some? ==> Lookup(folders[found.value], "folder") == Some(Str(parentId))
    ensures var r := ResolveFolderDropWith(folders, target, documentName, payload, maxDepth, ParentOfCollapsedCorrected);
            r.Ok? ==> r.value.parent == Str(parentId) && r.value.request.target.TargetRecord?
  {
  }

  /** Only a direct self-parent is refused: a folder dropped into one of its
      own children (an expanded row below the depth limit) is accepted and
      filed under that child, which is still filed under it. */
  lemma DropIntoOwnChildIsAccepted(folders: seq<Record>, target: Option<DropTarget>,
                                   payload: Option<Value>, maxDepth: int, movedId: string, childId: string)
    requires IsFolderTarget(target) && !target.value.collapsed && !AtMaxDepth(target, maxDepth)
    requires OptionalProp(payload, "_id") == Some(Str(movedId)) && movedId != childId && childId != ""
    requires var found := TargetFolder(folders, target);
             && found.Some?
             && Lookup(folders[found.value], "_id") == Some(Str(childId))
             && Lookup(folders[found.value], "folder") == Some(Str(movedId))
    ensures var r := ResolveFolderDropWith(folders, target, Some(Str("Tile")), payload, maxDepth, ParentOfCollapsed);
            r.Ok? && r.value.parent == Str(childId)
  {
    var dest := FolderDestinationWith(folders, target, maxDepth, ParentOfCollapsed);
    assert dest == Ok(Destination(NoTarget, Some(Str(childId))));
    assert !StrictEquals(Some(Str(childId)), Some(Str(movedId)));
  }
}

=== FILE: edits.dfy ===
/** The whole-list edits of apps/tile-templates.js: saving a template from
    the create/update dialog, creating a folder, and the clear, delete and
    remove callbacks of the context menus. Each returns the list written
    back to the settings store, or no write. */
module Edits {
  import opened Outcome
  import opened JsValue
  import opened Lists

  /** The thumbnail used when a template has no image. */
  const DefaultThumbnail := "modules/monks-active-tiles/img/cube.svg"

  /** A character `String.prototype.trim` removes. */
  predicate IsJsWhitespace(c: char)
  {
    var n := c as int;
    || n == 0x20 || (0x09 <= n <= 0x0D) || n == 0xA0 || n == 0x1680
    || (0x2000 <= n <= 0x200A) || n == 0x2028 || n == 0x2029 || n == 0x202F
    || n == 0x205F || n == 0x3000 || n == 0xFEFF
  }

  /** `!s.trim()`: the string is empty once trimmed. */
  predicate IsBlank(s: string)
  {
    forall i :: 0 <= i < |s| ==> IsJsWhitespace(s[i])
  }

  /** Lines 154-155: the form's fields over the dialog's data, with a falsy
      `folder` deleted. */
  function MergeForm(data: Record, form: Record): (d: Record)
    ensures forall k :: k != "folder" ==> Lookup(d, k) == (if k in form then Some(form[k]) else Lookup(data, k))
    ensures var folder := Lookup(data + form, "folder");
            Lookup(d, "folder") == (if Truthy(folder) then folder else None)
  {
    var merged := data + form;
    if Truthy(Lookup(merged, "folder")) then merged else merged - {"folder"}
  }

  /** Lines 162-173: the record a new template is stored as, built from
      the host's TileDocument normalisation (`normalize`) of the dialog data
      sized to one grid square. A TileDocument without `texture` throws. */
  function NewTemplate(d: Record, gridSize: int, normalize: Record -> Record, newId: string): (r: Result<Record>)
    requires !Truthy(Lookup(d, "id"))
    ensures r.Ok? ==>
              && Lookup(r.value, "_id") == Some(Str(newId))
              && Lookup(r.value, "id") == Some(Str(newId))
              && Lookup(r.value, "visible") == Some(Bool(true))
              && Lookup(r.value, "name") == Lookup(d, "name")
              && Lookup(r.value, "folder") == Lookup(d, "folder")
              && Lookup(r.value, "thumbnail") == Some(OrElse(Lookup(r.value, "img"), DefaultThumbnail))
    ensures var t := normalize(d["width" := Num(gridSize)]["height" := Num(gridSize)]);
            && (r.Ok? <==> !IsNullish(Lookup(t, "texture")))
            && (r.Ok? ==>
                  && Lookup(r.value, "img") == OptionalProp(Lookup(t, "texture"), "src")
                  && forall k :: k !in {"_id", "id", "name", "visible", "folder", "img", "thumbnail"} ==>
                       Lookup(r.value, k) == Lookup(t, k))
    ensures r.Halted? ==> r.how == Threw
  {
    var sized := d["width" := Num(gridSize)]["height" := Num(gridSize)];
    var t := normalize(sized);
    var filed := Filed(t, OrElse(Lookup(sized, "id"), newId), Lookup(sized, "name"), Lookup(sized, "folder"));
    assert Lookup(filed, "texture") == Lookup(t, "texture");
    match Prop(Lookup(filed, "texture"), "src")
    case Halted(h) => Halted(h)
    case Ok(src) => Ok(Pictured(filed, src))
  }

  /** Lines 167-170: the normalised record with its ids, name, visibility
      and folder set. */
  function Filed(t: Record, id: Value, name: Option<Value>, folder: Option<Value>): (r: Record)
    ensures Lookup(r, "_id") == Some(id) && Lookup(r, "id") == Some(id)
    ensures Lookup(r, "name") == name && Lookup(r, "folder") == folder
    ensures Lookup(r, "visible") == Some(Bool(true))
    ensures forall k :: k !in {"_id", "id", "name", "visible", "folder"} ==> Lookup(r, k) == Lookup(t, k)
  {
    var named := SetField(t["_id" := id]["id" := id], "name", name);
    SetField(named["visible" := Bool(true)], "folder", folder)
  }

  /** Lines 171-173: `img` replaced by the texture source, and the
      thumbnail falling back to the default image. */
  function Pictured(filed: Record, src: Option<Value>): (r: Record)
    ensures Lookup(r, "img") == src
    ensures Lookup(r, "thumbnail") == Some(OrElse(src, DefaultThumbnail))
    ensures forall k :: k !in {"img", "thumbnail"} ==> Lookup(r, k) == Lookup(filed, k)
  {
    var withImage := SetField(filed - {"img"}, "img", src);
    withImage["thumbnail" := OrElse(src, DefaultThumbnail)]
  }

  /** The dialog callback of `createDialog` (lines 151-179). With a truthy
      `id` the template with that `_id` is replaced by the merged data;
      otherwise a new template is appended under `newId`. */
  function SaveTemplate(collection: seq<Record>, data: Record, form: Record, gridSize: int,
                        normalize: Record -> Record, newId: string): (r: Result<seq<Record>>)
    // update: the first template with that `_id` replaced, nothing else changed
    ensures var d := MergeForm(data, form);
            Truthy(Lookup(d, "id")) ==>
              && r.Ok?
              && |r.value| == |collection|
              && match FindFirst(collection, HasId(Lookup(d, "id")))
                 case None => r.value == collection
                 case Some(i) =>
                   r.value[i] == d && forall j :: 0 <= j < |collection| && j != i ==> r.value[j] == collection[j]
    // create: one record appended, with the fresh id and the dialog's name and folder
    ensures var d := MergeForm(data, form);
            !Truthy(Lookup(d, "id")) && r.Ok? ==>
              && |r.value| == |collection| + 1
              && r.value[..|collection|] == collection
              && var t := r.value[|collection|];
              && Lookup(t, "_id") == Some(Str(newId))
              && Lookup(t, "id") == Some(Str(newId))
              && Lookup(t, "visible") == Some(Bool(true))
              && Lookup(t, "name") == Lookup(d, "name")
              && Lookup(t, "folder") == Lookup(d, "folder")
              && Lookup(t, "thumbnail") == Some(OrElse(Lookup(t, "img"), DefaultThumbnail))
    ensures var d := MergeForm(data, form);
            var n := normalize(d["width" := Num(gridSize)]["height" := Num(gridSize)]);
            !Truthy(Lookup(d, "id")) ==>
              && (r.Ok? <==> !IsNullish(Lookup(n, "texture")))
              && (r.Ok? ==> Lookup(r.value[|collection|], "img") == OptionalProp(Lookup(n, "texture"), "src"))
    ensures r.Halted? ==> r.how == Threw && !Truthy(Lookup(MergeForm(data, form), "id"))
  {
    var d := MergeForm(data, form);
    if Truthy(Lookup(d, "id")) then
      Ok(ReplaceFirst(collection, HasId(Lookup(d, "id")), d))
    else
      match NewTemplate(d, gridSize, normalize, newId)
      case Halted(h) => Halted(h)
      case Ok(t) =>
        assert (collection + [t])[..|collection|] == collection;
        Ok(collection + [t])
  }

  /** The folder form's save handler (lines 196-204): a blank name becomes
      the host's default name, and the folder is appended at the root with a
      fresh id. A `name` that is neither a string nor nullish has no `trim`
      and throws. */
  function CreateFolder(folders: seq<Record>, formData: Record, defaultName: string, newId: string): (r: Result<seq<Record>>)
    ensures r.Ok? ==>
              && |r.value| == |folders| + 1
              && r.value[..|folders|] == folders
              && var f := r.value[|folders|];
              && Lookup(f, "_id") == Some(Str(newId))
              && Lookup(f, "id") == Some(Str(newId))
              && Lookup(f, "visible") == Some(Bool(true))
              && Lookup(f, "folder") == Some(Null)
              && (forall k :: k !in {"_id", "id", "visible", "folder", "name"} ==> Lookup(f, k) == Lookup(formData, k))
    ensures r.Ok? && IsNullish(Lookup(formData, "name")) ==> Lookup(r.value[|folders|], "name") == Some(Str(defaultName))
    ensures Lookup(formData, "name").Some? && Lookup(formData, "name").value.Str? ==>
              var s := Lookup(formData, "name").value.s;
              && r.Ok?
              && Lookup(r.value[|folders|], "name") == Some(Str(if IsBlank(s) then defaultName else s))
    ensures r.Halted? <==> !IsNullish(Lookup(formData, "name")) && !Lookup(formData, "name").value.Str?
  {
    var name := Lookup(formData, "name");
    if !IsNullish(name) && !name.value.Str? then Halted(Threw)
    else
      var blank := IsNullish(name) || IsBlank(name.value.s);
      var named := if blank then formData["name" := Str(defaultName)] else formData;
      Ok(folders + [named["_id" := Str(newId)]["id" := Str(newId)]["visible" := Bool(true)]["folder" := Null]])
  }

  /** The "clear folder" entry callback (lines 408-413): the template found
      by id is moved to the root; a missing template throws. */
  function ClearFolder(templates: seq<Record>, documentId: Option<string>): (r: Result<seq<Record>>)
    ensures r.Ok? <==> exists i :: 0 <= i < |templates| && HasId(Attr(documentId))(templates[i])
    ensures r.Ok? ==>
              var i := FindFirst(templates, HasId(Attr(documentId))).value;
              && |r.value| == |templates|
              && Lookup(r.value[i], "folder") == Some(Null)
              && (forall k :: k != "folder" ==> Lookup(r.value[i], k) == Lookup(templates[i], k))
              && (forall j :: 0 <= j < |templates| && j != i ==> r.value[j] == templates[j])
    ensures r.Halted? ==> r.how == Threw
  {
    match FindFirst(templates, HasId(Attr(documentId)))
    case None => Halted(Threw)
    case Some(i) => Ok(templates[i := templates[i]["folder" := Null]])
  }

  /** The confirmed "delete" entry callback (lines 420-428): the template
      found by id is removed; with none, the callback returns. */
  function DeleteTemplate(templates: seq<Record>, documentId: Option<string>): (r: Result<seq<Record>>)
    ensures r.Ok? <==> exists i :: 0 <= i < |templates| && HasId(Attr(documentId))(templates[i])
    ensures r.Halted? ==> r.how == Returned
    ensures r.Ok? ==>
              var i := FindFirst(templates, HasId(Attr(documentId))).value;
              && r.value == templates[..i] + templates[i + 1..]
              && multiset(r.value) + multiset{templates[i]} == multiset(templates)
              && forall j :: 0 <= j < i ==> !HasId(Attr(documentId))(templates[j])
  {
    match FindFirst(templates, HasId(Attr(documentId)))
    case None => Halted(Returned)
    case Some(i) =>
      assert templates == templates[..i] + [templates[i]] + templates[i + 1..];
      Ok(RemoveFirst(templates, HasId(Attr(documentId))))
  }

  /** The confirmed "remove" and "delete" folder callbacks (lines 351-361
      and 376-386, which do the same), reading the folder id from the row
      element itself as the "edit" entry does (line 338): the folder found
      by id is spliced out by its own `_id`; its templates and subfolders
      keep their `folder` field. A missing folder throws. */
  function RemoveFolder(folders: seq<Record>, folderId: Option<string>): (r: Result<seq<Record>>)
    ensures r.Ok? <==> exists i :: 0 <= i < |folders| && HasId(Attr(folderId))(folders[i])
    ensures r.Halted? ==> r.how == Threw
    ensures r.Ok? ==>
              var i := FindFirst(folders, HasId(Attr(folderId))).value;
              && r.value == folders[..i] + folders[i + 1..]
              && multiset(r.value) + multiset{folders[i]} == multiset(folders)
  {
    match FindFirst(folders, HasId(Attr(folderId)))
    case None => Halted(Threw)
    case Some(i) =>
      SpliceFindsSameFolder(folders, Attr(folderId), i);
      assert folders == folders[..i] + [folders[i]] + folders[i + 1..];
      Ok(RemoveFirst(folders, HasId(Lookup(folders[i], "_id"))))
  }

  /** The "remove" and "delete" folder callbacks as written (lines 351-355
      and 376-380): `li` is `header.parent()`, a jQuery wrapper without a
      `dataset`, so the `find` test throws on the first folder it sees, and
      with no folders `folder.name` throws on the `undefined` found. Either
      way the callback throws before the confirmation dialog opens. */
  function RemoveFolderAsWritten(folders: seq<Record>): (r: Result<seq<Record>>)
    ensures r.Halted? && r.how == Threw
  {
    var dataset: Option<Value> := None;
    if |folders| == 0 then
      match Prop(None, "name")
      case Halted(h) => Halted(h)
      case Ok(_) => Ok(folders)
    else
      match Prop(dataset, "folderId")
      case Halted(h) => Halted(h)
      case Ok(_) => Ok(folders)
  }

  /** Finding again by the found record's own `_id` lands on the same
      record. */
  lemma SpliceFindsSameFolder(folders: seq<Record>, id: Option<Value>, i: nat)
    requires FindFirst(folders, HasId(id)) == Some(i)
    ensures FindFirst(folders, HasId(Lookup(folders[i], "_id"))) == Some(i)
  {
    var own := Lookup(folders[i], "_id");
    assert HasId(own)(folders[i]);
    forall j | 0 <= j < i
      ensures !HasId(own)(folders[j])
    {
      LooseEqualsTransitive(Lookup(folders[j], "_id"), own, id);
    }
  }
}

=== FILE: findings.dfy ===
/** Concrete inputs on which apps/tile-templates.js, as written, does not
    do what its surrounding code evidently intends, each beside the
    corrected behaviour. */
module Findings {
  import opened Outcome
  import opened JsValue
  import opened Drop
  import opened Transfer
  import Edits

  function Texture(src: string): Value
  {
    Obj(map["src" := Str(src)])
  }

  /** Line 494: importing into template X9, filed in folder F1, takes it out
      of F1; corrected, it stays there with its id, sort and name. */
  lemma ImportIntoFiledTemplate()
    ensures var dest := map["_id" := Str("X9"), "id" := Str("X9"), "sort" := Num(40), "folder" := Str("F1"),
                            "name" := Str("D"), "texture" := Texture("d.png")];
            var file := map["name" := Str("Imported"), "sort" := Num(7), "texture" := Texture("i.png")];
            var asWritten := Import([dest], Some("X9"), Some(file));
            var corrected := ImportCorrected([dest], Some("X9"), Some(file));
            && asWritten.Ok? && Lookup(asWritten.value[0], "folder") == None
            && corrected.Ok? && Lookup(corrected.value[0], "folder") == Some(Str("F1"))
            && Lookup(corrected.value[0], "sort") == Some(Num(40))
            && Lookup(corrected.value[0], "name") == Some(Str("D"))
  {
    var dest := map["_id" := Str("X9"), "id" := Str("X9"), "sort" := Num(40), "folder" := Str("F1"),
                    "name" := Str("D"), "texture" := Texture("d.png")];
    assert HasId(Attr(Some("X9")))(dest);
    assert Lists.FindFirst([dest], HasId(Attr(Some("X9")))) == Some(0);
  }

  /** A template or folder with matching `_id` and `id`. */
  function Entry(id: string, folder: Value): Record
  {
    map["_id" := Str(id), "id" := Str(id), "folder" := folder]
  }

  /** A host sort that only gives `id` the sort key 5. */
  function SortOnly(id: string): Sorter
  {
    (moved, request) => [SortUpdate(Some(Str(id)), map["sort" := Num(5)])]
  }

  /** The drop of lines 244-260 in the examples below: template B dropped
      onto template A, both filed in folder F1. */
  function RelativeTarget(): Option<DropTarget>
  {
    Some(DropTarget(Some(FolderElement(Some("F1"), false)), Some("A"), None, false, None))
  }

  function FiledTemplates(): seq<Record>
  {
    [Entry("A", Str("F1")), Entry("B", Str("F1"))]
  }

  function TemplateFolders(): seq<Record>
  {
    [Entry("F1", Null)]
  }

  /** A template drop that resolves, sorted by `SortOnly(id)`: the entry at
      `i` ends under the resolved parent. */
  lemma DocumentDropSortsOnly(collection: seq<Record>, folders: seq<Record>, target: Option<DropTarget>,
                              payload: Option<Value>, relativeFolder: Record -> Option<Value>, id: string, i: nat)
    requires ResolveDocumentDropWith(collection, folders, target, payload, relativeFolder).Ok?
    requires Lists.FindFirst(collection, HasId(Some(Str(id)))) == Some(i)
    ensures var plan := ResolveDocumentDropWith(collection, folders, target, payload, relativeFolder);
            var r := DropDocumentWith(collection, folders, target, payload, SortOnly(id), relativeFolder);
            r.Ok? && Lookup(r.value[i], "folder") == Some(plan.value.parent)
  {
    var plan := ResolveDocumentDropWith(collection, folders, target, payload, relativeFolder).value;
    var updates := SortOnly(id)(plan.moved, plan.request);
    assert updates == [SortUpdate(Some(Str(id)), map["sort" := Num(5)])];
    SortedInto(collection, updates, plan.parent, i);
  }

  /** The id "F1" is truthy, so `"F1" || null` is "F1". */
  lemma FolderF1IsTruthy()
    ensures OrNull(Some(Str("F1"))) == Str("F1")
  {
    assert "F1" != "";
  }

  /** As written, B ends at the root. */
  lemma RelativeDropLeavesFolder()
    ensures var r := DropDocument(FiledTemplates(), TemplateFolders(), RelativeTarget(),
                                  Some(Obj(FiledTemplates()[1])), SortOnly("B"));
            r.Ok? && Lookup(r.value[1], "folder") == Some(Null)
  {
    var templates := FiledTemplates();
    var folders := TemplateFolders();
    var payload := Some(Obj(templates[1]));
    assert templates[1..] == [templates[1]];
    assert Lists.FindFirst(templates, HasId(Attr(Some("A")))) == Some(0);
    assert Lists.FindFirst(templates, HasId(Some(Str("B")))) == Some(1);
    var plan := ResolveDocumentDrop(templates, folders, RelativeTarget(), payload);
    assert plan.Ok? && plan.value.parent == Null;
    DocumentDropSortsOnly(templates, folders, RelativeTarget(), payload, TargetFolderField, "B", 1);
    assert DropDocument(templates, folders, RelativeTarget(), payload, SortOnly("B"))
        == DropDocumentWith(templates, folders, RelativeTarget(), payload, SortOnly("B"), TargetFolderField);
  }

  /** Corrected, B stays in F1. */
  lemma RelativeDropKeepsFolder()
    ensures var r := DropDocumentCorrected(FiledTemplates(), TemplateFolders(), RelativeTarget(),
                                           Some(Obj(FiledTemplates()[1])), SortOnly("B"));
            r.Ok? && Lookup(r.value[1], "folder") == Some(Str("F1"))
  {
    var templates := FiledTemplates();
    var folders := TemplateFolders();
    var payload := Some(Obj(templates[1]));
    assert templates[1..] == [templates[1]];
    assert Lists.FindFirst(templates, HasId(Attr(Some("A")))) == Some(0);
    assert Lists.FindFirst(folders, HasId(Some(Str("F1")))) == Some(0);
    assert Lists.FindFirst(templates, HasId(Some(Str("B")))) == Some(1);
    assert TargetFolderRecord(folders)(templates[0]) == Some(Obj(folders[0]));
    FolderF1IsTruthy();
    var plan := ResolveDocumentDropCorrected(templates, folders, RelativeTarget(), payload);
    assert plan.Ok? && plan.value.parent == Str("F1");
    DocumentDropSortsOnly(templates, folders, RelativeTarget(), payload, TargetFolderRecord(folders), "B", 1);
    assert DropDocumentCorrected(templates, folders, RelativeTarget(), payload, SortOnly("B"))
        == DropDocumentWith(templates, folders, RelativeTarget(), payload, SortOnly("B"), TargetFolderRecord(folders));
  }

  /** A one-update merge applied to the entry at `i`. */
  lemma SortedInto(list: seq<Record>, updates: seq<SortUpdate>, parent: Value, i: nat)
    requires |updates| == 1
    requires Lists.FindFirst(list, HasId(updates[0].targetId)) == Some(i)
    ensures var r := ApplySortUpdates(list, updates, parent);
            r.Ok? && Lookup(r.value[i], "folder") == Some(parent)
  {
    var next := list[i := (list[i] + updates[0].update)["folder" := parent]];
    assert ApplySortUpdates(list, updates, parent) == ApplySortUpdates(next, updates[1..], parent);
    assert updates[1..] == [];
  }

  /** The drop of line 290 in the examples below: folder M dropped onto the
      collapsed folder C, both under folder P. */
  function CollapsedTarget(): Option<DropTarget>
  {
    Some(DropTarget(Some(FolderElement(Some("C"), true)), None, Some("C"), true, Some(2)))
  }

  function NestedFolders(): seq<Record>
  {
    [Entry("P", Null), Entry("C", Str("P")), Entry("M", Str("P"))]
  }

  /** Both lookups of the collapsed-folder examples. */
  lemma NestedFoldersLookups()
    ensures Lists.FindFirst(NestedFolders(), HasFolderId(Attr(Some("C")))) == Some(1)
    ensures Lists.FindFirst(NestedFolders(), HasId(Some(Str("M")))) == Some(2)
  {
    var folders := NestedFolders();
    assert folders[1..] == [folders[1], folders[2]] && folders[1..][1..] == [folders[2]];
    assert Lists.FindFirst(folders[1..][1..], HasId(Some(Str("M")))) == Some(0);
    assert Lists.FindFirst(folders[1..], HasId(Some(Str("M")))) == Some(1);
  }

  /** A folder drop that resolves, sorted by `SortOnly(id)`: the entry at
      `i` ends under the resolved parent. */
  lemma FolderDropSortsOnly(folders: seq<Record>, target: Option<DropTarget>, payload: Option<Value>,
                            collapsedParent: Record -> Option<Value>, dest: Destination, id: string, i: nat)
    requires FolderDestinationWith(folders, target, 4, collapsedParent) == Ok(dest)
    requires !IsNullish(payload) && !StrictEquals(dest.parentId, OptionalProp(payload, "_id"))
    requires Lists.FindFirst(folders, HasId(Some(Str(id)))) == Some(i)
    ensures var r := DropFolderWith(folders, target, Some(Str("Tile")), payload, 4, SortOnly(id), collapsedParent);
            r.Ok? && Lookup(r.value[i], "folder") == Some(OrNull(dest.parentId))
  {
    assert StrictEquals(Some(Str("Tile")), Some(Str("Tile")));
    var plan := FolderPlanFrom(folders, payload, dest);
    assert ResolveFolderDropWith(folders, target, Some(Str("Tile")), payload, 4, collapsedParent) == plan;
    assert plan.Ok? && plan.value.parent == OrNull(dest.parentId);
    var updates := SortOnly(id)(plan.value.moved, plan.value.request);
    assert updates == [SortUpdate(Some(Str(id)), map["sort" := Num(5)])];
    SortedInto(folders, updates, plan.value.parent, i);
  }

  /** A drop onto a collapsed folder row found at `i` sorts beside it. */
  lemma CollapsedDestination(folders: seq<Record>, target: Option<DropTarget>,
                             collapsedParent: Record -> Option<Value>, i: nat)
    requires IsFolderTarget(target) && target.value.collapsed && TargetFolder(folders, target) == Some(i)
    ensures FolderDestinationWith(folders, target, 4, collapsedParent)
            == Ok(Destination(TargetRecord(folders[i]), collapsedParent(folders[i])))
  {
  }

  /** As written, M ends at the root. */
  lemma CollapsedDropLeavesParent()
    ensures var r := DropFolder(NestedFolders(), CollapsedTarget(), Some(Str("Tile")),
                                Some(Obj(NestedFolders()[2])), 4, SortOnly("M"));
            r.Ok? && Lookup(r.value[2], "folder") == Some(Null)
  {
    var folders := NestedFolders();
    var payload := Some(Obj(folders[2]));
    NestedFoldersLookups();
    CollapsedDestination(folders, CollapsedTarget(), ParentOfCollapsed, 1);
    assert ParentOfCollapsed(folders[1]) == None;
    assert OptionalProp(payload, "_id") == Some(Str("M"));
    assert !StrictEquals(None, OptionalProp(payload, "_id"));
    FolderDropSortsOnly(folders, CollapsedTarget(), payload, ParentOfCollapsed,
                        Destination(TargetRecord(folders[1]), None), "M", 2);
    var r := DropFolder(folders, CollapsedTarget(), Some(Str("Tile")), payload, 4, SortOnly("M"));
    assert r == DropFolderWith(folders, CollapsedTarget(), Some(Str("Tile")), payload, 4, SortOnly("M"), ParentOfCollapsed);
    assert OrNull(None) == Null;
    assert Lookup(r.value[2], "folder") == Some(Null);
  }

  /** The id "P" is truthy, so `"P" || null` is "P". */
  lemma ParentPIsTruthy()
    ensures OrNull(Some(Str("P"))) == Str("P")
  {
    assert "P" != "";
  }

  /** Corrected, M stays under P beside C. */
  lemma CollapsedDropKeepsParent()
    ensures var r := DropFolderCorrected(NestedFolders(), CollapsedTarget(), Some(Str("Tile")),
                                         Some(Obj(NestedFolders()[2])), 4, SortOnly("M"));
            r.Ok? && Lookup(r.value[2], "folder") == Some(Str("P"))
  {
    var folders := NestedFolders();
    var payload := Some(Obj(folders[2]));
    NestedFoldersLookups();
    CollapsedDestination(folders, CollapsedTarget(), ParentOfCollapsedCorrected, 1);
    assert ParentOfCollapsedCorrected(folders[1]) == Some(Str("P"));
    assert OptionalProp(payload, "_id") == Some(Str("M"));
    assert !StrictEquals(Some(Str("P")), OptionalProp(payload, "_id"));
    FolderDropSortsOnly(folders, CollapsedTarget(), payload, ParentOfCollapsedCorrected,
                        Destination(TargetRecord(folders[1]), Some(Str("P"))), "M", 2);
    var r := DropFolderCorrected(folders, CollapsedTarget(), Some(Str("Tile")), payload, 4, SortOnly("M"));
    assert r == DropFolderWith(folders, CollapsedTarget(), Some(Str("Tile")), payload, 4, SortOnly("M"), ParentOfCollapsedCorrected);
    ParentPIsTruthy();
    assert Lookup(r.value[2], "folder") == Some(Str("P"));
  }

  /** Lines 351-359: removing folder F1 from the list holding only F1 throws
      as written; reading the id from the row element, F1 is removed. */
  lemma RemoveOnlyFolder()
    ensures Edits.RemoveFolderAsWritten([Entry("F1", Null)]) == Halted(Threw)
    ensures Edits.RemoveFolder([Entry("F1", Null)], Some("F1")) == Ok([])
  {
    assert HasId(Attr(Some("F1")))(Entry("F1", Null));
  }
}

=== FILE: js_value.dfy ===
/** The JavaScript values stored in the template and folder settings, with the
    parts of the language's truthiness, equality and property access that the
    sidebar code relies on. */
module JsValue {
  import opened Outcome

  /** A JSON-shaped value. `undefined` is not a value: a property that is
      missing (or holds `undefined`) reads as `None`. Numbers are integers. */
  datatype Value =
    | Null
    | Bool(b: bool)
    | Num(n: int)
    | Str(s: string)
    | Arr(items: seq<Value>)
    | Obj(fields: map<string, Value>)

  /** A stored record (a template or a folder): its own properties. */
  type Record = map<string, Value>

  /** `r.key` on a record. */
  function Lookup(r: Record, key: string): Option<Value>
  {
    if key in r then Some(r[key]) else None
  }

  /** `r.key = v`. Assigning `undefined` removes the key: the two cannot be
      told apart once the list is serialised to the settings store. */
  function SetField(r: Record, key: string, v: Option<Value>): Record
  {
    if v.Some? then r[key := v.value] else r - {key}
  }

  /** `delete r.key` for several keys. */
  function Without(r: Record, keys: set<string>): Record
  {
    r - keys
  }

  predicate IsNullish(v: Option<Value>)
  {
    v.None? || v.value.Null?
  }

  predicate IsPrimitive(x: Value)
  {
    !x.Arr? && !x.Obj?
  }

  predicate IsObject(v: Option<Value>)
  {
    v.Some? && v.value.Obj?
  }

  /** Truthiness, as used by `if (x)`, `!x` and `x || y`. */
  predicate Truthy(v: Option<Value>)
  {
    match v
    case None => false
    case Some(x) =>
      match x
      case Null => false
      case Bool(b) => b
      case Num(n) => n != 0
      case Str(s) => s != ""
      case Arr(_) => true
      case Obj(_) => true
  }

  /** `a === b`. Objects and arrays compare by reference; every record that
      reaches the sidebar code is a fresh copy, so two of them never match. */
  predicate StrictEquals(a: Option<Value>, b: Option<Value>)
  {
    if a.None? || b.None? then a.None? && b.None?
    else IsPrimitive(a.value) && a.value == b.value
  }

  /** `a == b`: `null` and `undefined` match each other and nothing else;
      primitives of one kind match by value; objects as for `===`. */
  predicate LooseEquals(a: Option<Value>, b: Option<Value>)
  {
    if IsNullish(a) || IsNullish(b) then IsNullish(a) && IsNullish(b)
    else IsPrimitive(a.value) && a.value == b.value
  }

  /** `v?.key`: `undefined` on a nullish value, and on primitives (the keys
      read this way, `id` and `_id`, are not properties of any primitive). */
  function OptionalProp(v: Option<Value>, key: string): Option<Value>
  {
    if IsObject(v) then Lookup(v.value.fields, key) else None
  }

  /** `v.key`: as `v?.key`, but a TypeError on a nullish value. */
  function Prop(v: Option<Value>, key: string): Result<Option<Value>>
  {
    if IsNullish(v) then Halted(Threw) else Ok(OptionalProp(v, key))
  }

  /** `v || null`. */
  function OrNull(v: Option<Value>): Value
  {
    if Truthy(v) then v.value else Null
  }

  /** `v || fallback` for a string fallback. */
  function OrElse(v: Option<Value>, fallback: string): Value
  {
    if Truthy(v) then v.value else Str(fallback)
  }

  /** `d => d._id == id`, the test every lookup by id uses. */
  function HasId(id: Option<Value>): Record -> bool
  {
    d => LooseEquals(Lookup(d, "_id"), id)
  }

  /** A DOM `dataset` attribute, which is a string or `undefined`. */
  function Attr(a: Option<string>): Option<Value>
  {
    if a.Some? then Some(Str(a.value)) else None
  }

  predicate TruthyAttr(a: Option<string>)
  {
    a.Some? && a.value != ""
  }

  /** `==` is an equivalence on everything but objects, so finding by an id
      and then by the found record's id lands on the same kind of record. */
  lemma LooseEqualsTransitive(a: Option<Value>, b: Option<Value>, c: Option<Value>)
    ensures LooseEquals(a, b) && LooseEquals(b, c) ==> LooseEquals(a, c)
    ensures LooseEquals(a, b) ==> LooseEquals(b, a)
  {
  }
}

=== FILE: lists.dfy ===
/** The host's array helpers the sidebar code leans on, given their list
    meaning: `find`/`findIndex`, `findSplice`, `filter`, `partition` and a
    stable `sort` with a comparator. */
module Lists {
  import opened Outcome

  /** Index of the first element satisfying `p` (`Array.prototype.findIndex`,
      with `None` for -1). */
  function FindFirst<T>(s: seq<T>, p: T -> bool): (r: Option<nat>)
    ensures r.Some? ==> r.value < |s| && p(s[r.value])
    ensures r.Some? ==> forall j :: 0 <= j < r.value ==> !p(s[j])
    ensures r.None? <==> forall j :: 0 <= j < |s| ==> !p(s[j])
  {
    if |s| == 0 then None
    else if p(s[0]) then Some(0)
    else
      match FindFirst(s[1..], p)
      case None => None
      case Some(i) => Some(i + 1)
  }

  /** `findSplice(p, x)`: the first element satisfying `p` replaced by `x`;
      the list unchanged when none does. */
  function ReplaceFirst<T>(s: seq<T>, p: T -> bool, x: T): (r: seq<T>)
    ensures |r| == |s|
    ensures FindFirst(s, p).None? ==> r == s
    ensures FindFirst(s, p).Some? ==>
              var i := FindFirst(s, p).value;
              r[i] == x && forall j :: 0 <= j < |s| && j != i ==> r[j] == s[j]
  {
    match FindFirst(s, p)
    case None => s
    case Some(i) => s[i := x]
  }

  /** `findSplice(p)` without a replacement: the first element satisfying
      `p` removed; the list unchanged when none does. */
  function RemoveFirst<T>(s: seq<T>, p: T -> bool): (r: seq<T>)
    ensures FindFirst(s, p).None? ==> r == s
    ensures FindFirst(s, p).Some? ==>
              var i := FindFirst(s, p).value;
              |r| == |s| - 1 &&
              (forall j :: 0 <= j < i ==> r[j] == s[j]) &&
              (forall j :: i <= j < |r| ==> r[j] == s[j + 1])
  {
    match FindFirst(s, p)
    case None => s
    case Some(i) => s[..i] + s[i + 1..]
  }

  /** `filter(p)`. */
  function Filter<T>(s: seq<T>, p: T -> bool): (r: seq<T>)
    ensures |r| <= |s|
    ensures forall x :: x in r ==> x in s && p(x)
    ensures forall j :: 0 <= j < |s| && p(s[j]) ==> s[j] in r
  {
    if |s| == 0 then []
    else
      assert s == [s[0]] + s[1..];
      if p(s[0]) then [s[0]] + Filter(s[1..], p) else Filter(s[1..], p)
  }

  /** `partition(p)` returns `[rejected, accepted]`, each in input order. */
  function Partition<T>(s: seq<T>, p: T -> bool): (seq<T>, seq<T>)
  {
    (Filter(s, x => !p(x)), Filter(s, p))
  }

  /** The two halves of a partition together hold exactly the input. */
  lemma {:induction false} PartitionIsPermutation<T>(s: seq<T>, p: T -> bool)
    ensures multiset(Partition(s, p).0) + multiset(Partition(s, p).1) == multiset(s)
  {
    if |s| > 0 {
      var (no, yes) := Partition(s[1..], p);
      PartitionIsPermutation(s[1..], p);
      assert s == [s[0]] + s[1..];
      if p(s[0]) {
        assert Partition(s, p) == (no, [s[0]] + yes);
      } else {
        assert Partition(s, p) == ([s[0]] + no, yes);
      }
    }
  }

  /** A filter keeps each element at most as often as the input has it. */
  lemma FilterIsSubMultiset<T>(s: seq<T>, p: T -> bool)
    ensures multiset(Filter(s, p)) <= multiset(s)
  {
    PartitionIsPermutation(s, p);
  }

  /** When no element passes the rule, the partition rejects all of them. */
  lemma {:induction false} PartitionNonePass<T>(s: seq<T>, p: T -> bool)
    requires forall x :: x in s ==> !p(x)
    ensures Partition(s, p) == (s, [])
  {
    if |s| > 0 {
      PartitionNonePass(s[1..], p);
      assert s == [s[0]] + s[1..];
      assert Filter(s, x => !p(x)) == [s[0]] + Filter(s[1..], x => !p(x));
    }
  }

  /** `cmp(a, b) <= 0` means `a` may stay before `b`. */
  ghost predicate TotalPreorder<T(!new)>(cmp: (T, T) -> int)
  {
    && (forall a, b :: cmp(a, b) <= 0 || cmp(b, a) <= 0)
    && (forall a, b, c :: cmp(a, b) <= 0 && cmp(b, c) <= 0 ==> cmp(a, c) <= 0)
  }

  ghost predicate SortedBy<T>(s: seq<T>, cmp: (T, T) -> int)
  {
    forall i, j :: 0 <= i < j < |s| ==> cmp(s[i], s[j]) <= 0
  }

  /** Places `x` before the first element it may precede. */
  function Insert<T>(x: T, s: seq<T>, cmp: (T, T) -> int): (r: seq<T>)
    ensures multiset(r) == multiset(s) + multiset{x}
    ensures |r| == |s| + 1
    ensures x in r && forall y :: y in s ==> y in r
    ensures forall y :: y in r ==> y in s || y == x
  {
    if |s| == 0 || cmp(x, s[0]) <= 0 then [x] + s
    else
      assert s == [s[0]] + s[1..];
      [s[0]] + Insert(x, s[1..], cmp)
  }

  /** `sort(cmp)`: a stable sort, as JavaScript's `Array.prototype.sort`. */
  function SortBy<T>(s: seq<T>, cmp: (T, T) -> int): (r: seq<T>)
    ensures multiset(r) == multiset(s)
    ensures |r| == |s|
    ensures forall x :: x in r ==> x in s
    ensures forall x :: x in s ==> x in r
  {
    if |s| == 0 then []
    else
      assert s == [s[0]] + s[1..];
      Insert(s[0], SortBy(s[1..], cmp), cmp)
  }

  lemma {:induction false} InsertSorted<T(!new)>(x: T, s: seq<T>, cmp: (T, T) -> int)
    requires TotalPreorder(cmp)
    requires SortedBy(s, cmp)
    ensures SortedBy(Insert(x, s, cmp), cmp)
  {
    if |s| == 0 || cmp(x, s[0]) <= 0 {
    } else {
      InsertSorted(x, s[1..], cmp);
      var t := Insert(x, s[1..], cmp);
      assert cmp(s[0], x) <= 0;
      forall k | 0 <= k < |t|
        ensures cmp(s[0], t[k]) <= 0
      {
        assert t[k] in multiset(s[1..]) + multiset{x};
        if t[k] == x {
        } else {
          assert t[k] in s[1..];
        }
      }
    }
  }

  /** With a consistent comparator the sort's output is ordered. */
  lemma {:induction false} SortBySorted<T(!new)>(s: seq<T>, cmp: (T, T) -> int)
    requires TotalPreorder(cmp)
    ensures SortedBy(SortBy(s, cmp), cmp)
  {
    if |s| > 0 {
      SortBySorted(s[1..], cmp);
      InsertSorted(s[0], SortBy(s[1..], cmp), cmp);
    }
  }
}

=== FILE: outcome.dfy ===
/** Optional values and the ways a sidebar callback can end. */
module Outcome {

  /** A value that may be absent; `None` stands for JavaScript's `undefined`. */
  datatype Option<+T> = None | Some(value: T)

  /** How a callback stops before it reaches its settings write. */
  datatype Halt =
    | Returned  // an explicit early `return`
    | Threw     // a TypeError (property read on `undefined`/`null`, call of a non-function)

  /** `Ok` carries what the callback produces (for the list edits: the whole
      list it writes back to the settings store); `Halted` means nothing is
      written. */
  datatype Result<+T> = Ok(value: T) | Halted(how: Halt)
}

=== FILE: transfer.dfy ===
/** The export and import entry callbacks of apps/tile-templates.js: the
    record written to a JSON file, and the record an imported file becomes. */
module Transfer {
  import opened Outcome
  import opened JsValue
  import opened Lists
  import Edits

  /** The fields neither an exported file nor an imported one carries. */
  const Stripped: set<string> := {"_id", "folder", "sort", "ownership"}

  /** The destination fields an import keeps. */
  const Preserved: set<string> := {"_id", "sort", "ownership", "name"}

  /** The fields an import sets itself. */
  const ImportSet: set<string> := Preserved + {"folder", "visible", "img", "id", "thumbnail"}

  /** The host's world, system and version, stamped into an export. */
  datatype ExportSource = ExportSource(world: Value, system: Value, coreVersion: Value, systemVersion: Value)

  function StampOf(source: ExportSource): Value
  {
    Obj(map["world" := source.world, "system" := source.system,
            "coreVersion" := source.coreVersion, "systemVersion" := source.systemVersion])
  }

  /** The "export" entry callback (lines 443-457): a copy of the template
      found by id without its identity, folder, sort and ownership, its
      `flags` stamped with the export source. The template must exist, have
      `flags` to write into (a property on an array is dropped by the JSON
      serialisation; on anything else it throws) and a string `name` for the
      file name. */
  function Export(templates: seq<Record>, documentId: Option<string>, source: ExportSource): (r: Result<Record>)
    ensures r.Ok? <==>
              var found := FindFirst(templates, HasId(Attr(documentId)));
              && found.Some?
              && var t := templates[found.value];
              && Lookup(t, "flags").Some? && (Lookup(t, "flags").value.Obj? || Lookup(t, "flags").value.Arr?)
              && Lookup(t, "name").Some? && Lookup(t, "name").value.Str?
    ensures r.Halted? ==> r.how == Threw
    ensures r.Ok? ==>
              var t := templates[FindFirst(templates, HasId(Attr(documentId))).value];
              && (forall k :: k in Stripped ==> k !in r.value)
              && (forall k :: k !in Stripped && k != "flags" ==> Lookup(r.value, k) == Lookup(t, k))
              && var flags := Lookup(t, "flags");
              && var out := Lookup(r.value, "flags");
              && (flags.value.Arr? ==> out == flags)
              && (flags.value.Obj? ==>
                    && IsObject(out)
                    && Lookup(out.value.fields, "exportSource") == Some(StampOf(source))
                    && forall k :: k != "exportSource" ==> Lookup(out.value.fields, k) == Lookup(flags.value.fields, k))
  {
    match FindFirst(templates, HasId(Attr(documentId)))
    case None => Halted(Threw)
    case Some(i) =>
      var data := Without(templates[i], Stripped);
      var flags := Lookup(data, "flags");
      var name := Lookup(data, "name");
      if flags.None? || !(flags.value.Obj? || flags.value.Arr?) then Halted(Threw)
      else if name.None? || !name.value.Str? then Halted(Threw)
      else if flags.value.Arr? then Ok(data)
      else Ok(data["flags" := Obj(flags.value.fields["exportSource" := StampOf(source)])])
  }

  /** Line 494 as written: `document.folder?.id`, read on the destination's
      folder id string. */
  function ImportedFolder(dest: Record): Option<Value>
  {
    OptionalProp(Lookup(dest, "folder"), "id")
  }

  /** The evident intent of line 494: the destination's folder id. */
  function ImportedFolderCorrected(dest: Record): Option<Value>
  {
    Lookup(dest, "folder")
  }

  /** Lines 484-495: the imported fields without identity, folder, sort
      and ownership, overlaid with the destination's `_id`, `sort`,
      `ownership` and `name` and with the folder `keptFolder` keeps. */
  function KeepDestination(dest: Record, imported: Record, keptFolder: Record -> Option<Value>): (r: Record)
    ensures forall k :: k in Preserved ==> Lookup(r, k) == Lookup(dest, k)
    ensures Lookup(r, "folder") == keptFolder(dest)
    ensures forall k :: k !in Preserved && k != "folder" ==> Lookup(r, k) == Lookup(imported, k)
  {
    var data := Without(imported, Stripped);
    SetField(SetField(SetField(SetField(SetField(data,
      "_id", Lookup(dest, "_id")),
      "sort", Lookup(dest, "sort")),
      "ownership", Lookup(dest, "ownership")),
      "name", Lookup(dest, "name")),
      "folder", keptFolder(dest))
  }

  /** Lines 484-501: the record the imported file (after the host's
      TileDocument normalisation) becomes, given the destination template and
      the folder the import keeps (`keptFolder`). An imported record without
      `texture` throws. */
  function ImportedRecord(dest: Record, imported: Record, keptFolder: Record -> Option<Value>): (r: Result<Record>)
    ensures r.Halted? <==> IsNullish(Lookup(imported, "texture"))
    ensures r.Halted? ==> r.how == Threw
    ensures r.Ok? ==>
              && (forall k :: k in Preserved ==> Lookup(r.value, k) == Lookup(dest, k))
              && Lookup(r.value, "id") == Lookup(dest, "_id")
              && Lookup(r.value, "folder") == keptFolder(dest)
              && Lookup(r.value, "visible") == Some(Bool(true))
              && Lookup(r.value, "img") == OptionalProp(Lookup(imported, "texture"), "src")
              && Lookup(r.value, "thumbnail") == Some(OrElse(Lookup(r.value, "img"), Edits.DefaultThumbnail))
              && forall k :: k !in ImportSet ==> Lookup(r.value, k) == Lookup(imported, k)
  {
    var kept := KeepDestination(dest, imported, keptFolder);
    assert Lookup(kept, "texture") == Lookup(imported, "texture");
    match Prop(Lookup(kept, "texture"), "src")
    case Halted(h) => Halted(h)
    case Ok(src) =>
      var shown := Displayed(kept, src);
      DisplayFieldsAreSet();
      Ok(shown)
  }

  /** The fields the display step writes are neither preserved nor left to
      the imported record. */
  lemma DisplayFieldsAreSet()
    ensures forall k :: k in Preserved ==> k !in {"visible", "img", "id", "thumbnail"}
    ensures forall k :: k !in ImportSet ==> k !in Preserved && k != "folder" && k !in {"visible", "img", "id", "thumbnail"}
  {
  }

  /** Lines 497-501: shown, with `img` the texture source, `id` the `_id`,
      and the default thumbnail when there is no image. */
  function Displayed(kept: Record, src: Option<Value>): (r: Record)
    ensures Lookup(r, "visible") == Some(Bool(true))
    ensures Lookup(r, "img") == src
    ensures Lookup(r, "id") == Lookup(kept, "_id")
    ensures Lookup(r, "thumbnail") == Some(OrElse(src, Edits.DefaultThumbnail))
    ensures forall k :: k !in {"visible", "img", "id", "thumbnail"} ==> Lookup(r, k) == Lookup(kept, k)
  {
    var withImage := SetField(kept["visible" := Bool(true)] - {"img"}, "img", src);
    var withId := SetField(withImage, "id", Lookup(withImage, "_id"));
    withId["thumbnail" := OrElse(src, Edits.DefaultThumbnail)]
  }

  /** The "import" entry callback (lines 465-505), keeping the folder given
      by `keptFolder`: the destination template found by id is replaced in
      place by the imported record. A missing destination throws; no chosen
      file (`file` is None) stops with a notification. */
  function ImportWith(templates: seq<Record>, documentId: Option<string>, file: Option<Record>,
                      keptFolder: Record -> Option<Value>): (r: Result<seq<Record>>)
    ensures FindFirst(templates, HasId(Attr(documentId))).None? ==> r == Halted(Threw)
    ensures FindFirst(templates, HasId(Attr(documentId))).Some? && file.None? ==> r == Halted(Returned)
    ensures FindFirst(templates, HasId(Attr(documentId))).Some? && file.Some? ==>
              (r.Ok? <==> !IsNullish(Lookup(file.value, "texture")))
    ensures r.Ok? ==>
              var i := FindFirst(templates, HasId(Attr(documentId))).value;
              && file.Some?
              && |r.value| == |templates|
              && ImportedRecord(templates[i], file.value, keptFolder) == Ok(r.value[i])
              && forall j :: 0 <= j < |templates| && j != i ==> r.value[j] == templates[j]
  {
    match FindFirst(templates, HasId(Attr(documentId)))
    case None => Halted(Threw)
    case Some(i) =>
      if file.None? then Halted(Returned)
      else
        match ImportedRecord(templates[i], file.value, keptFolder)
        case Halted(h) => Halted(h)
        case Ok(d) => Ok(ReplaceFirst(templates, HasId(Attr(documentId)), d))
  }

  /** The import callback as written. */
  function Import(templates: seq<Record>, documentId: Option<string>, file: Option<Record>): Result<seq<Record>>
  {
    ImportWith(templates, documentId, file, ImportedFolder)
  }

  /** The import callback with line 494 corrected. */
  function ImportCorrected(templates: seq<Record>, documentId: Option<string>, file: Option<Record>): Result<seq<Record>>
  {
    ImportWith(templates, documentId, file, ImportedFolderCorrected)
  }

  /** As written, importing into a template filed in a folder (whose
      `folder` is an id string) takes it out of the folder. */
  lemma ImportLosesFolder(templates: seq<Record>, documentId: Option<string>, file: Option<Record>)
    requires var found := FindFirst(templates, HasId(Attr(documentId)));
             found.Some? ==> !IsObject(Lookup(templates[found.value], "folder"))
    ensures var r := Import(templates, documentId, file);
            r.Ok? ==> Lookup(r.value[FindFirst(templates, HasId(Attr(documentId))).value], "folder") == None
  {
  }

  /** Corrected, exporting a template and importing the file back into it
      (with a normalisation that leaves the exported record as it is)
      restores every field but `flags` and the display fields the import
      sets (`visible`, `img`, `id`, `thumbnail`). */
  lemma ExportImportRoundTrip(templates: seq<Record>, documentId: Option<string>, source: ExportSource)
    requires Export(templates, documentId, source).Ok?
    ensures var i := FindFirst(templates, HasId(Attr(documentId))).value;
            var r := ImportCorrected(templates, documentId, Some(Export(templates, documentId, source).value));
            !IsNullish(Lookup(templates[i], "texture")) ==>
              && r.Ok?
              && forall k :: k !in {"flags", "visible", "img", "id", "thumbnail"} ==>
                   Lookup(r.value[i], k) == Lookup(templates[i], k)
  {
    var i := FindFirst(templates, HasId(Attr(documentId))).value;
    var e := Export(templates, documentId, source).value;
    var r := ImportCorrected(templates, documentId, Some(e));
    if !IsNullish(Lookup(templates[i], "texture")) {
      assert Lookup(e, "texture") == Lookup(templates[i], "texture");
      var d := ImportedRecord(templates[i], e, ImportedFolderCorrected);
      assert d.Ok?;
      forall k | k !in {"flags", "visible", "img", "id", "thumbnail"}
        ensures Lookup(r.value[i], k) == Lookup(templates[i], k)
      {
        if k !in ImportSet {
          assert Lookup(r.value[i], k) == Lookup(e, k);
        }
      }
    }
  }
}
